=== FILE: README.md ===
# CDMP complaint lifecycle and points, in Dafny

The Community-Driven Infrastructure Management Platform lets citizens
submit infrastructure complaints. Admins assign complaints to departments,
move them through the statuses `submitted`, `assigned`, `in-progress`,
`resolved` and `completed`, or reject them. The submitting citizen earns
points as the complaint moves forward, and the points feed a public
leaderboard and a profile rank.

This project models that core as pure functions over one immutable value
holding the tables the routes touch: `users`, `complaints`,
`status_history` and `notifications`, plus the next serial ids. The model
covers:

- **Creating a complaint** (`ComplaintRoutes.Create`). A new complaint starts
  `submitted` with 0 points and gets one history row. The stored image
  falls back to the client's URI when the upload fails.
- **Admin routes** (`AdminRoutes`). Assign-department, update-status and
  reject each pass the admin gate first, then their field checks and the
  complaint lookup, then write their rows.
- **The points rule.** Update-status credits only the rise of the
  complaint's value. `Lifecycle.OwnerCreditIsAscent` proves what that adds
  up to over any walk of statuses: the owner is credited the total of the
  upward steps. A backward move is not taken back, and the climb after it
  is paid again.
- **Table consistency** (`Lifecycle`). Any sequence of requests keeps
  primary keys unique and each complaint's newest history row equal to its
  status. No request ever lowers a user's points.
- **The dashboard counts** and the two user leaderboards. One leaderboard
  is citizens-only with position ranks. The other lists every user with
  the stored rank.
- **The profile rank and the notification feed.**
- **Register and login**, including their failure paths.
- **The department-award ledger**: its NOT NULL columns, its column
  types and its unique (complaint, status) constraint.
- **The client's status timeline**, which maps `assigned` onto `received`.
- **The image-host string helpers**: stripping the data-URL prefix and
  deriving the public id.
- **The client's sign-in form validator.**

Database timestamps are naturals the caller supplies. A lookup
`where({ id }).first()` takes the first matching row, and
`where({ id }).update(...)` rewrites every matching row. A sort is a stable
insertion sort. Its contracts promise only what SQL promises: a sorted
permutation. Password hashing and checking are function parameters, the
image host is a function from (data URL, folder) to an optional URL, and
whether the token secret is configured is a boolean.

Three behaviours of the code worth noting:

- The reject route stores no rejection reason.
- The leaderboard in `routes/complaints.js` includes admins and reports the
  stored `rank` column.
- Department accounts count toward the profile rank, while the public
  leaderboard leaves them out.

## Model

| member | source | states |
|---|---|---|
| Model.FindUser | CDMP-backend/src/routes/admin.js:9 | a found row is in the table with the id asked for; nothing is found exactly when no row has that id |
| Model.FindComplaint | CDMP-backend/src/routes/admin.js:155-158 | a found row is in the table with the id asked for; not found exactly when no row has that id |
| Model.AddPoints | CDMP-backend/src/routes/admin.js:162-164 | every row with the id gains exactly `d` points; every other row and every id is unchanged |
| Model.PointsAfterAdd | CDMP-backend/src/routes/admin.js:244-248 | after an increment the user's looked-up points rise by exactly `d`, every other user's lookup is unchanged, and the set of existing users is unchanged |
| Model.OwnerAfterAdd | CDMP-backend/src/routes/admin.js:244-248 | an increment changes only the points column of the row a lookup of the user finds, raising it by `d` |
| Model.AdminsAfterAdd | CDMP-backend/src/routes/admin.js:7-17 | a points increment never changes who passes the admin gate |
| Model.Credit | CDMP-backend/src/routes/admin.js:162-164 | as a route sees an increment: the credited user's row is found with its points raised by `d` and every other column as it was, nobody else's row changes, no id changes, and the admin flags stay |
| Model.AddSubmission | CDMP-backend/src/routes/complaints.js:171-173 | the creator's rows gain one submission; every other row is unchanged |
| Model.PointsAfterSubmission | CDMP-backend/src/routes/complaints.js:171-173 | counting a submission changes no user's points |
| Model.FindAfterAppend | CDMP-backend/src/routes/auth.js:29-34 | inserting a user row leaves every existing user's lookup unchanged |
| Model.UpdateComplaint | CDMP-backend/src/routes/admin.js:167-174 | rows with the id are rewritten by `f`, other rows are untouched, the length is kept |
| Model.FindAfterUpdate | CDMP-backend/src/routes/admin.js:234-241 | after an id-preserving update, looking the id up finds the rewritten row, and every other id finds what it found before |
| Model.Rewrite | CDMP-backend/src/routes/admin.js:297-302 | as a route sees an update: the complaint becomes `f` of what it was, other complaints are unchanged, no row changes its id |
| Model.LastStatus | CDMP-backend/src/routes/admin.js:251-256 | a complaint has a newest history status exactly when some history row is about it, and that status is one of its rows' |
| Model.LastStatusAppend | CDMP-backend/src/routes/admin.js:176-182 | after a history row is appended, a complaint's newest status is that row's status if the row is about it, and unchanged otherwise |
| AdminRoutes.StatusPoints | CDMP-backend/src/routes/admin.js:221-230 | at most 100; zero exactly for statuses outside `assigned`, `in-progress`, `resolved`, `completed`, so `submitted`, `rejected` and unknown strings count 0 |
| AdminRoutes.AssignDepartment | CDMP-backend/src/routes/admin.js:146-203 | the gate, then a missing or empty department, then a missing complaint are the errors, in that order; on success the owner's row gains exactly 10 points whatever the complaint held, with every other column kept, the complaint becomes `assigned` with 10 points and the department, one `assigned` history row is appended, and one info notification titled "Complaint Assigned" tells the owner the department and the 10 points earned, and nothing else changes |
| AdminRoutes.UpdateStatus | CDMP-backend/src/routes/admin.js:206-284 | errors in gate, status, lookup order; on success the complaint's points are overwritten with the status value, and the owner's row gains the award in its points column and nothing else, with old points + award = max(old, new value); the department is kept when none is sent, in the row and in the history; the notification is success exactly when the award is positive, info otherwise; the notification goes to the owner, names the complaint, is titled "Status Updated: " with the status, and carries the status message |
| AdminRoutes.IsAdmin | CDMP-backend/src/routes/admin.js:8-9 | an actor passes the gate only when some user row with their id is an admin; an id with no user row never passes |
| AdminRoutes.StatusMessage | CDMP-backend/src/routes/admin.js:259-269 | the fixed texts for `assigned`, `in-progress`, `resolved` and `completed`; every other status, `submitted` and `rejected` included, gets "Your complaint status has been updated to " followed by the status |
| AdminRoutes.Reject | CDMP-backend/src/routes/admin.js:287-330 | errors in gate, lookup order; on success only the status becomes `rejected`, no user changes, and the history row carries the complaint's current department; one warning notification titled "Complaint Rejected" says the complaint was reviewed and rejected with no points awarded |
| AdminRoutes.GroupCount | CDMP-backend/src/routes/admin.js:355-359 | one entry per non-null key that occurs, holding the positive count of rows carrying it |
| AdminRoutes.StatusCountIsGroup | CDMP-backend/src/routes/admin.js:344-345 | a count filtered on one status equals that status's group count |
| AdminRoutes.ResolvedCountIsGroup | CDMP-backend/src/routes/admin.js:346 | the resolved count is the `resolved` group plus the `completed` group |
| AdminRoutes.CountWithStatus | CDMP-backend/src/routes/admin.js:344-345 | the filtered count agrees with the grouped count for that status |
| AdminRoutes.CountResolved | CDMP-backend/src/routes/admin.js:346 | counts `resolved` and `completed` complaints together |
| AdminRoutes.RecentComplaints | CDMP-backend/src/routes/admin.js:348-351 | at most five complaints from the table, newest first, none newer left out |
| AdminRoutes.LookupIsKeyCount | CDMP-backend/src/routes/admin.js:362-365 | looking a status up in the grouped counts gives the number of rows with it, 0 when absent |
| AdminRoutes.StatusGroups | CDMP-backend/src/routes/admin.js:362-365 | the status groups are exactly the statuses some complaint has |
| AdminRoutes.DepartmentGroups | CDMP-backend/src/routes/admin.js:355-359 | the department groups are exactly the departments some complaint has |
| AdminRoutes.DashboardStats | CDMP-backend/src/routes/admin.js:333-365 | denied exactly to non-admins; the status and department breakdowns are exactly the per-key counts of the complaint table, every listed key counting its rows; pending is the number of `submitted` complaints, in-progress the `in-progress` ones, resolved the `resolved` plus `completed` ones, each also read from the status breakdown; totals are the table sizes; recent is the five newest |
| ComplaintRoutes.StoredCoordinate | CDMP-backend/src/routes/complaints.js:148-149 | a missing or zero coordinate is stored as NULL, any other as given |
| ComplaintRoutes.StoredImage | CDMP-backend/src/routes/complaints.js:124-133 | with no base64 image, or when its upload fails, the client's `imageUri` is stored; otherwise the hosted URL |
| ComplaintRoutes.Create | CDMP-backend/src/routes/complaints.js:118-173 | the new complaint takes the next id and is `submitted` with 0 points, no department, `aiCategorized` only when sent true, and coordinates as stored; exactly one `submitted` history row and one success notification are appended; only the creator's submission count rises |
| ComplaintRoutes.HistoryOf | CDMP-backend/src/routes/complaints.js:31-33 | exactly the complaint's history rows, each as often as stored, oldest first |
| ComplaintRoutes.Views | CDMP-backend/src/routes/complaints.js:29-33 | each complaint paired with its own history, in the given order |
| ComplaintRoutes.ListComplaints | CDMP-backend/src/routes/complaints.js:8-33 | exactly the complaints of `userId` when given, all otherwise, each as often as stored, newest first, each with its own history |
| ComplaintRoutes.StoredRankEntries | CDMP-backend/src/routes/complaints.js:207-215 | each response row carries its user's stored rank |
| ComplaintRoutes.TopUsersListed | CDMP-backend/src/routes/complaints.js:202-205 | the 50 highest-scoring rows, admins included, are drawn from the table and none left out scores more |
| ComplaintRoutes.StoredRankLeaderboard | CDMP-backend/src/routes/complaints.js:200-215 | at most 50 rows, points non-increasing, the top-scoring users with their stored ranks |
| ServerRoutes.RankedEntries | CDMP-backend/src/index.js:38-46 | the row at position i has rank i + 1 |
| ServerRoutes.TopCitizensListed | CDMP-backend/src/index.js:30-35 | the listed users are citizens from the table, and no citizen left out has more points than one listed |
| ServerRoutes.PublicLeaderboard | CDMP-backend/src/index.js:28-46 | min(50, number of citizens) rows, no admin or department account, points non-increasing, ranks exactly 1..n by position so ties get distinct ranks |
| ServerRoutes.NewestOwnShown | CDMP-backend/src/index.js:80-83 | the shown rows are the caller's own, drawn from the table, all of them unless 20 are shown, and none left out is newer |
| ServerRoutes.UserNotifications | CDMP-backend/src/index.js:78-83 | at most 20 of the caller's own notifications, newest first |
| AuthRoutes.Register | CDMP-backend/src/routes/auth.js:15-38 | a taken email is reported before a taken username and neither inserts anything; otherwise the user is inserted with the next id, the given username, display name and email, the hashed password and 0 points, and a missing secret reports misconfiguration with the row already inserted |
| AuthRoutes.FindByEmail | CDMP-backend/src/routes/auth.js:69 | the first row with that email; nothing is found exactly when no row has it |
| AuthRoutes.Login | CDMP-backend/src/routes/auth.js:65-78 | an unknown email and a wrong password give the same invalid-credentials answer; success exactly when the email exists, the password checks and the secret is set; the user returned is the first row with the email, the one whose hash was checked |
| AuthRoutes.ProfileRank | CDMP-backend/src/routes/auth.js:116-122 | between 1 and one more than the number of users |
| AuthRoutes.Ahead | CDMP-backend/src/routes/auth.js:116-119 | a user is ahead of a score exactly when they are not an admin and hold strictly more points |
| AuthRoutes.Profile | CDMP-backend/src/routes/auth.js:110-122 | not found exactly when no row has the id; otherwise the row and its rank |
| AuthRoutes.ProfileRankTie | CDMP-backend/src/routes/auth.js:116-122 | users with equal points share a rank |
| AuthRoutes.ProfileRankOrder | CDMP-backend/src/routes/auth.js:116-122 | more points never rank worse, and a listed non-admin ranks strictly ahead of anyone with fewer points |
| AuthRoutes.ProfileRankFirst | CDMP-backend/src/routes/auth.js:116-122 | rank 1 exactly when no non-admin has more points |
| AwardLedger.WellKeyedIsUnique | CDMP-backend/src/migrations/20251107_create_department_points_history.js:13 | a table keyed by (complaint, status) holds at most one row per pair |
| AwardLedger.MissingColumn | CDMP-backend/src/migrations/20251107_create_department_points_history.js:8-12 | an insert is free of NOT NULL violations exactly when complaint, department and status are given and points and date are not NULL |
| AwardLedger.Insert | CDMP-backend/src/migrations/20251107_create_department_points_history.js:5-14 | NULL violations, then an integer outside 32 bits or a string over 255 characters, then a repeated pair, are refused; otherwise exactly one row is added, points default to 0, date to the insert time, other rows untouched, and both the keying and the column types are kept |
| AwardLedger.BadValue | CDMP-backend/src/migrations/20251107_create_department_points_history.js:8-11 | a value is refused exactly when an integer column gets a value outside 32 bits or a string column gets more than 255 characters; the complaint id is reported exactly when it is out of range |
| AwardLedger.InsertTwice | CDMP-backend/src/migrations/20251107_create_department_points_history.js:13 | a second award for the same (complaint, status) pair is always refused, with the unique violation when its values fit their columns |
| StatusTimeline.Normalize | components/StatusTimeline.tsx:27 | `assigned` becomes `received`; every other status is unchanged |
| StatusTimeline.IndexOf | components/StatusTimeline.tsx:29 | the first position holding the value, -1 exactly when it is absent |
| StatusTimeline.CurrentIndex | components/StatusTimeline.tsx:29-30 | the step of the normalised current status, -1 when it is not a step |
| StatusTimeline.FirstReaching | components/StatusTimeline.tsx:38 | the first history row whose normalised status is the step, none exactly when no row reaches it |
| StatusTimeline.Draw | components/StatusTimeline.tsx:34-38 | four steps in order, completed ones a prefix, at most one active, which is the last completed one |
| StatusTimeline.Timeline | components/StatusTimeline.tsx:23-38 | completed steps form a prefix ending at the single active step, which is the current status; none completed exactly when the status is not a step; each step shows its first reaching row |
| StatusTimeline.AssignedDrawnAsReceived | components/StatusTimeline.tsx:27-30 | an `assigned` complaint is drawn exactly as a `received` one |
| StatusTimeline.NormalizeIdempotent | components/StatusTimeline.tsx:27 | normalising twice is normalising once |
| StatusTimeline.OffStepStatusesCompleteNothing | components/StatusTimeline.tsx:29-35 | `resolved` and `rejected` complete no step |
| MediaUrls.IndexOfFrom | CDMP-backend/src/utils/cloudinary.js:20 | the first occurrence at or after the start, none exactly when there is no later occurrence |
| MediaUrls.Piece | CDMP-backend/src/utils/cloudinary.js:21 | a substring from the start up to the next marker or the end, containing no marker |
| MediaUrls.StripDataPrefix | CDMP-backend/src/utils/cloudinary.js:20-22 | without a marker the input is unchanged; with one, the text between the first marker and the next one or the end |
| MediaUrls.UploadPayload | CDMP-backend/src/utils/cloudinary.js:25 | the JPEG data-URL prefix followed by the stripped payload |
| MediaUrls.StripIdempotent | CDMP-backend/src/utils/cloudinary.js:20-22 | stripping a stripped payload changes nothing |
| MediaUrls.FirstMarkerOfDataUrl | CDMP-backend/src/utils/cloudinary.js:25 | in the uploaded string the first marker is the one the prefix ends with |
| MediaUrls.MarkerAfterPrefix | CDMP-backend/src/utils/cloudinary.js:25 | a marker after the prefix lies inside the payload |
| MediaUrls.StripUploadPayload | CDMP-backend/src/utils/cloudinary.js:20-25 | stripping the uploaded string gives back the payload |
| MediaUrls.UploadBase64Image | CDMP-backend/src/utils/cloudinary.js:17-41 | the upload goes to `complaints` unless a folder is given; a host failure is reported as the one message "Failed to upload image" |
| MediaUrls.Split | CDMP-backend/src/utils/cloudinary.js:51 | at least one part, none containing the separator, the first part a prefix ending at the first separator |
| MediaUrls.JoinSplit | CDMP-backend/src/utils/cloudinary.js:51 | joining the parts of a split gives the string back |
| MediaUrls.SplitJoin | CDMP-backend/src/utils/cloudinary.js:51 | splitting a join of separator-free parts gives the parts back |
| MediaUrls.SplitFree | CDMP-backend/src/utils/cloudinary.js:51 | a string without the separator splits into itself |
| MediaUrls.SplitPrefix | CDMP-backend/src/utils/cloudinary.js:52 | a separator-free head before the separator is the first part |
| MediaUrls.PublicId | CDMP-backend/src/utils/cloudinary.js:51-54 | the second-to-last path segment (`undefined` when there is none), a slash, and the last segment cut at its first dot |
| MediaUrls.PublicIdOfHostedUrl | CDMP-backend/src/utils/cloudinary.js:51-54 | a hosted `.../folder/name.ext` URL gives `folder/name` |
| MediaUrls.PublicIdWithoutSlash | CDMP-backend/src/utils/cloudinary.js:51-54 | a URL without a slash gives `undefined/name` |
| AuthForm.ValidationError | app/auth.tsx:25-53 | login fails exactly on an empty email or password; sign-up passes exactly when all five fields are filled, the passwords match and it is at least 6 long; an empty field is reported first, then a mismatch, then the length |
| AuthForm.HandleAuth | app/auth.tsx:19-67 | a press while loading does nothing; otherwise loading ends cleared, the API is called exactly when the form validates and with the matching call, a validation failure alerts its message, and a thrown error alerts its message or the generic one |
| AuthForm.CallFor | app/auth.tsx:32-54 | the login form calls login with its email and password; the register form calls register with its username, name as display name, email and password |
| AuthForm.RegisterOnlyWhenValid | app/auth.tsx:41-54 | a register request is only ever sent with the form's five fields all filled, matching passwords and a password of at least 6 characters |
| Lifecycle.RewriteKeepsValid | CDMP-backend/src/routes/admin.js:234-256 | rewriting one complaint to a status and appending a matching history row keeps the tables consistent |
| Lifecycle.SubmitKeepsValid | CDMP-backend/src/routes/complaints.js:137-159 | a submission keeps ids unique and below the next serial, and each newest history row equal to its complaint's status |
| Lifecycle.RegisterKeepsValid | CDMP-backend/src/routes/auth.js:29-34 | a registration keeps user ids unique and below the next serial |
| Lifecycle.AssignKeepsValid | CDMP-backend/src/routes/admin.js:146-203 | a successful assignment keeps the tables consistent |
| Lifecycle.StatusKeepsValid | CDMP-backend/src/routes/admin.js:206-284 | a successful status update keeps the tables consistent |
| Lifecycle.RejectKeepsValid | CDMP-backend/src/routes/admin.js:287-330 | a successful rejection keeps the tables consistent |
| Lifecycle.ApplyKeepsValid | CDMP-backend/src/routes/admin.js:146-330 | every write request keeps the tables consistent |
| Lifecycle.RunKeepsValid | CDMP-backend/src/routes/admin.js:146-330 | any sequence of write requests keeps the tables consistent |
| Lifecycle.CreditKeepsPoints | CDMP-backend/src/routes/admin.js:244-248 | a write that only raises one user's points lowers nobody's |
| Lifecycle.AssignKeepsPoints | CDMP-backend/src/routes/admin.js:160-164 | a successful assignment lowers nobody's points |
| Lifecycle.StatusKeepsPoints | CDMP-backend/src/routes/admin.js:244-248 | a successful status update lowers nobody's points |
| Lifecycle.ApplyKeepsPoints | CDMP-backend/src/routes/admin.js:160-248 | no request lowers any user's points |
| Lifecycle.RunKeepsPoints | CDMP-backend/src/routes/admin.js:160-248 | after any sequence of requests every user has at least the points they had |
| Lifecycle.ApplyKeepsHistory | CDMP-backend/src/routes/admin.js:176-192 | every request only appends to the history and notification tables |
| Lifecycle.RunKeepsHistory | CDMP-backend/src/routes/admin.js:176-192 | the history and notification tables keep their rows as a prefix over any sequence of requests |
| Lifecycle.AscentStep | CDMP-backend/src/routes/admin.js:229-231 | one credit step: old value plus the rise is the larger of the two values |
| Lifecycle.AscentOfTiers | CDMP-backend/src/routes/admin.js:221-231 | the first status update of a walk is one such step over the status values |
| Lifecycle.AscentCovers | CDMP-backend/src/routes/admin.js:229-231 | the total rise from the first value reaches every later value |
| Lifecycle.AscentOfRising | CDMP-backend/src/routes/admin.js:229-231 | a never-falling sequence rises by exactly its last minus its first value |
| Lifecycle.AscentOfForwardPath | CDMP-backend/src/routes/admin.js:221-231 | from 0, a walk whose status values never fall rises by exactly its last status's value |
| Lifecycle.Tiers | CDMP-backend/src/routes/admin.js:221-230 | the status value of each status in turn |
| Lifecycle.StatusStepCredits | CDMP-backend/src/routes/admin.js:229-248 | one update succeeds; owner's points plus the complaint's old points become the owner's old points plus the larger of old and new value; admin, complaint and owner persist |
| Lifecycle.OwnerCreditIsAscent | CDMP-backend/src/routes/admin.js:229-248 | walking a complaint through statuses credits its owner exactly the total rise of the complaint's value |
| Lifecycle.OwnerCreditCoversEveryStatus | CDMP-backend/src/routes/admin.js:229-248 | the owner's credit from a walk covers the value of every status it reached |
| Lifecycle.OwnerCreditOnForwardPath | CDMP-backend/src/routes/admin.js:221-248 | moving a new complaint forward credits exactly the value of the last status |
| Lifecycle.BounceIsPaidTwice | CDMP-backend/src/routes/admin.js:229-238 | `completed`, `resolved`, `completed` from 0 credits 150 |
| Lifecycle.RepeatedStatusAwardsNothing | CDMP-backend/src/routes/admin.js:229-231 | setting the same status twice awards nothing the second time |
| Lifecycle.ReassignThenCompleteAwards90 | CDMP-backend/src/routes/admin.js:160-231 | assigning resets the complaint to 10, so completing afterwards awards 90 however far it had got |
| Seqs.SortDesc | CDMP-backend/src/routes/complaints.js:20 | a permutation of the input ordered by the key, largest first |
| Seqs.Top | CDMP-backend/src/index.js:34-35 | min(n, length) elements from the input, largest key first, none left out with a larger key |

## Left out

- HTTP plumbing: status codes, JSON shapes and the catch-all 500 responses. A database failure is not modelled, and every route runs to completion or returns one of the modelled errors.
- The admin complaint list and detail routes (`GET /admin/complaints`, `GET /admin/complaints/:id`) and their query-string pagination, which depend on JavaScript's coercion of untyped query values.
- `GET /complaints/:id`, and the two prize listings, which only read and reshape rows.
- The token check in front of the authenticated routes: the caller's user id is a parameter. The admin gate is modelled as the `AccessDenied` error.
- bcrypt hashing and comparison, and JWT signing: the hash and the check are function parameters, and whether the secret is set is a flag.
- The image host's upload and destroy calls: the upload is a function parameter. `deleteImage` swallows every failure, so only its public-id derivation is modelled.
- socket.io and the server start-up: transport and concurrency.
- Concurrency between requests. Each request is one atomic step, although the route issues several queries that could interleave.
- Latitude and longitude as floating point: they are kept as reals, and only whether they are zero matters.
- Department points, bonus timing and backfill: only the ledger table's constraints are modelled. No route writes `department_points_history`: `index.js` mounts only the auth, complaints and admin routers, and none of them names the table.
- React rendering, styling and navigation in the client: only the timeline's step computation and the form handler's decisions are modelled.
- AdminRoutes.StatusPoints: a status naming an inherited JavaScript object property, such as `constructor`, would look up a non-number in the points map. The model treats every unlisted status as 0.
- AdminRoutes.StatusMessage: the same inherited-property lookup happens in the message map. For a status such as `constructor`, `toString` or `__proto__`, the route would store the inherited value as the message, not the fallback. The model gives every unlisted status the fallback text.
- AwardLedger.Insert: the length and range refusals assume an engine that enforces declared column types, as PostgreSQL does; SQLite would store such values. When one insert both leaves a NOT NULL column empty and gives an over-long or out-of-range value, the model reports the NULL, while PostgreSQL converts values first and would report the bad value. A repeated pair whose other values do not fit is reported as the bad value, not as the unique violation, as PostgreSQL would.
- AuthForm.ValidationError: JavaScript's `password.length` counts UTF-16 code units. The model counts characters, which agree for passwords without astral-plane characters.
- AdminRoutes.UpdateStatus: a NULL `points` column on a complaint is read as 0 by the route, and the model stores points as a natural number from the start.
- ComplaintRoutes.Create: the notification insert names no `date`, and the complaint insert names neither `created_at` nor `updated_at`. The model stamps all three with the insert time, as column defaults would. The newest-first order of the complaint list rests on this.
- AuthRoutes.Register: the insert names neither `points` nor `is_admin`, so the new row takes the users table's column defaults. The model takes these to be 0 points and no admin flag.
- ComplaintRoutes.ListComplaints: the joined username and avatar columns are not modelled. Ties in `created_at` and in history dates come back in an order the database chooses, and the model fixes one such order.
- StatusTimeline.Timeline: the icons, labels and colours are not modelled.
- The notification's read flag and the user's avatar and shipping address: neither is written by any modelled route.

=== FILE: admin.dfy ===
/** The admin routes that move a complaint through its lifecycle and credit
    the submitting user, and the dashboard counts. Each route first passes
    the admin gate: the acting user must exist and be flagged as admin. */
module AdminRoutes {
  import opened Wrappers
  import opened Model
  import Seqs

  datatype AdminError = AccessDenied | DepartmentRequired | StatusRequired | ComplaintNotFound

  /** The tables after a successful route and the points it reports as
      `pointsAwarded` (0 for a rejection, which reports none). */
  datatype Transition = Transition(state: State, pointsAwarded: nat)

  /** The admin gate: a user row with this id exists and has `is_admin`. */
  predicate IsAdmin(s: State, actor: UserId)
    ensures IsAdmin(s, actor) ==> exists i :: 0 <= i < |s.users| && s.users[i].id == actor && s.users[i].isAdmin
    ensures (forall i :: 0 <= i < |s.users| ==> s.users[i].id != actor) ==> !IsAdmin(s, actor)
  {
    FindUser(s.users, actor).Some? && FindUser(s.users, actor).value.isAdmin
  }

  /** The flat award for assigning a department. */
  const AssignmentPoints: nat := 10

  /** The points a complaint is worth at each status. */
  function StatusPoints(status: string): (p: nat)
    ensures p <= 100
    ensures p == 0 <==> status !in {Assigned, InProgress, Resolved, Completed}
  {
    if status == Submitted then 0
    else if status == Assigned then 10
    else if status == InProgress then 25
    else if status == Resolved then 50
    else if status == Completed then 100
    else 0
  }

  function Max(a: nat, b: nat): nat {
    if a >= b then a else b
  }

  /** The user-facing text for a status change. */
  function StatusMessage(status: string): (m: string)
    ensures status == Assigned ==> m == "Your complaint has been assigned and is being reviewed"
    ensures status == InProgress ==> m == "Work has started on your complaint"
    ensures status == Resolved ==> m == "Your complaint has been resolved"
    ensures status == Completed ==> m == "Your complaint has been completed"
    ensures status !in {Assigned, InProgress, Resolved, Completed} ==>
      m == "Your complaint status has been updated to " + status
  {
    if status == Assigned then "Your complaint has been assigned and is being reviewed"
    else if status == InProgress then "Work has started on your complaint"
    else if status == Resolved then "Your complaint has been resolved"
    else if status == Completed then "Your complaint has been completed"
    else "Your complaint status has been updated to " + status
  }

  /** The titles and messages of the route notifications. */
  const AssignedTitle: string := "Complaint Assigned"
  const RejectedTitle: string := "Complaint Rejected"
  const RejectedMessage: string := "Your complaint has been reviewed and rejected. No points awarded."

  function AssignedMessage(department: string): string {
    "Your complaint has been assigned to " + department + ". You earned 10 points!"
  }

  function StatusTitle(status: string): string {
    "Status Updated: " + status
  }

  /** PATCH /complaints/:id/assign-department. The complaint's owner gains
      10 points whatever the complaint held before, and the complaint is
      reset to `assigned` with 10 points and the new department. */
  function AssignDepartment(s: State, actor: UserId, id: ComplaintId, department: Option<string>, now: Time)
    : (r: Result<Transition, AdminError>)
    ensures !IsAdmin(s, actor) ==> r == Err(AccessDenied)
    ensures IsAdmin(s, actor) && !Present(department) ==> r == Err(DepartmentRequired)
    ensures IsAdmin(s, actor) && Present(department) && FindComplaint(s.complaints, id).None? ==>
      r == Err(ComplaintNotFound)
    ensures r.Ok? <==> IsAdmin(s, actor) && Present(department) && FindComplaint(s.complaints, id).Some?
    ensures r.Ok? ==> forall a :: IsAdmin(r.value.state, a) <==> IsAdmin(s, a)
    ensures r.Ok? ==>
      && |r.value.state.users| == |s.users|
      && forall i :: 0 <= i < |s.users| ==> r.value.state.users[i].id == s.users[i].id
    ensures r.Ok? ==>
      && |r.value.state.complaints| == |s.complaints|
      && forall i :: 0 <= i < |s.complaints| ==> r.value.state.complaints[i].id == s.complaints[i].id
    ensures r.Ok? ==>
      var c := FindComplaint(s.complaints, id).value;
      var s' := r.value.state;
      && r.value.pointsAwarded == AssignmentPoints
      && (FindUser(s.users, c.userId).Some? ==> PointsOf(s'.users, c.userId) == PointsOf(s.users, c.userId) + 10)
      && Credited(s.users, s'.users, c.userId, AssignmentPoints)
      && (forall u :: u != c.userId ==> FindUser(s'.users, u) == FindUser(s.users, u))
      && FindComplaint(s'.complaints, id) ==
           Some(c.(department := department, status := Assigned, points := 10, updatedAt := now))
      && (forall o :: o != id ==> FindComplaint(s'.complaints, o) == FindComplaint(s.complaints, o))
      && s'.history == s.history + [HistoryEntry(id, Assigned, department, now)]
      && |s'.notifications| == |s.notifications| + 1
      && s'.notifications[..|s.notifications|] == s.notifications
      && s'.notifications[|s.notifications|].userId == c.userId
      && s'.notifications[|s.notifications|].kind == Info
      && s'.notifications[|s.notifications|].title == AssignedTitle
      && s'.notifications[|s.notifications|].message == AssignedMessage(department.value)
      && s'.notifications[|s.notifications|].complaintId == Some(id)
      && s'.nextUserId == s.nextUserId && s'.nextComplaintId == s.nextComplaintId
  {
    if !IsAdmin(s, actor) then Err(AccessDenied)
    else if !Present(department) then Err(DepartmentRequired)
    else match FindComplaint(s.complaints, id)
      case None => Err(ComplaintNotFound)
      case Some(c) =>
        var dept := department.value;
        var f := (x: Complaint) => x.(department := department, status := Assigned, points := AssignmentPoints, updatedAt := now);
        var note := Notification(c.userId, AssignedTitle, AssignedMessage(dept), Info, Some(id), now);
        Ok(Transition(
          s.(users := Credit(s.users, c.userId, AssignmentPoints),
             complaints := Rewrite(s.complaints, id, f),
             history := s.history + [HistoryEntry(id, Assigned, department, now)],
             notifications := s.notifications + [note]),
          AssignmentPoints))
  }

  /** PATCH /complaints/:id/update-status. The complaint's points are
      overwritten with the new status's value; the owner is credited only
      the increase over the complaint's previous points, so the owner's
      credit from this complaint becomes the larger of the two. */
  function UpdateStatus(s: State, actor: UserId, id: ComplaintId, status: Option<string>, department: Option<string>, now: Time)
    : (r: Result<Transition, AdminError>)
    ensures !IsAdmin(s, actor) ==> r == Err(AccessDenied)
    ensures IsAdmin(s, actor) && !Present(status) ==> r == Err(StatusRequired)
    ensures IsAdmin(s, actor) && Present(status) && FindComplaint(s.complaints, id).None? ==>
      r == Err(ComplaintNotFound)
    ensures r.Ok? <==> IsAdmin(s, actor) && Present(status) && FindComplaint(s.complaints, id).Some?
    ensures r.Ok? ==> forall a :: IsAdmin(r.value.state, a) <==> IsAdmin(s, a)
    ensures r.Ok? ==>
      && |r.value.state.users| == |s.users|
      && forall i :: 0 <= i < |s.users| ==> r.value.state.users[i].id == s.users[i].id
    ensures r.Ok? ==>
      && |r.value.state.complaints| == |s.complaints|
      && forall i :: 0 <= i < |s.complaints| ==> r.value.state.complaints[i].id == s.complaints[i].id
    ensures r.Ok? ==>
      var c := FindComplaint(s.complaints, id).value;
      var st := status.value;
      var dept := if Present(department) then department else c.department;
      var s' := r.value.state;
      && c.points + r.value.pointsAwarded == Max(c.points, StatusPoints(st))
      && (FindUser(s.users, c.userId).Some? ==>
            PointsOf(s'.users, c.userId) == PointsOf(s.users, c.userId) + r.value.pointsAwarded)
      && Credited(s.users, s'.users, c.userId, r.value.pointsAwarded)
      && (forall u :: u != c.userId ==> FindUser(s'.users, u) == FindUser(s.users, u))
      && FindComplaint(s'.complaints, id) ==
           Some(c.(status := st, points := StatusPoints(st), department := dept, updatedAt := now))
      && (forall o :: o != id ==> FindComplaint(s'.complaints, o) == FindComplaint(s.complaints, o))
      && s'.history == s.history + [HistoryEntry(id, st, dept, now)]
      && |s'.notifications| == |s.notifications| + 1
      && s'.notifications[..|s.notifications|] == s.notifications
      && s'.notifications[|s.notifications|].userId == c.userId
      && s'.notifications[|s.notifications|].title == StatusTitle(st)
      && s'.notifications[|s.notifications|].message == StatusMessage(st)
      && s'.notifications[|s.notifications|].complaintId == Some(id)
      && (s'.notifications[|s.notifications|].kind == Success <==> r.value.pointsAwarded > 0)
      && (s'.notifications[|s.notifications|].kind == Info <==> r.value.pointsAwarded == 0)
      && s'.nextUserId == s.nextUserId && s'.nextComplaintId == s.nextComplaintId
  {
    if !IsAdmin(s, actor) then Err(AccessDenied)
    else if !Present(status) then Err(StatusRequired)
    else match FindComplaint(s.complaints, id)
      case None => Err(ComplaintNotFound)
      case Some(c) =>
        var st := status.value;
        var statusPoints := StatusPoints(st);
        var pointsToAdd: nat := if statusPoints > c.points then statusPoints - c.points else 0;
        var dept := if Present(department) then department else c.department;
        var f := (x: Complaint) => x.(status := st, points := statusPoints, department := dept, updatedAt := now);
        var note := Notification(c.userId, StatusTitle(st), StatusMessage(st),
          if pointsToAdd > 0 then Success else Info, Some(id), now);
        CreditedNothing(s.users, c.userId);
        Ok(Transition(
          s.(users := if pointsToAdd > 0 then Credit(s.users, c.userId, pointsToAdd) else s.users,
             complaints := Rewrite(s.complaints, id, f),
             history := s.history + [HistoryEntry(id, st, dept, now)],
             notifications := s.notifications + [note]),
          pointsToAdd))
  }

  /** PATCH /complaints/:id/reject. Only the status changes; no points move
      and the history row keeps the complaint's current department. */
  function Reject(s: State, actor: UserId, id: ComplaintId, now: Time): (r: Result<Transition, AdminError>)
    ensures !IsAdmin(s, actor) ==> r == Err(AccessDenied)
    ensures IsAdmin(s, actor) && FindComplaint(s.complaints, id).None? ==> r == Err(ComplaintNotFound)
    ensures r.Ok? <==> IsAdmin(s, actor) && FindComplaint(s.complaints, id).Some?
    ensures r.Ok? ==>
      && |r.value.state.complaints| == |s.complaints|
      && forall i :: 0 <= i < |s.complaints| ==> r.value.state.complaints[i].id == s.complaints[i].id
    ensures r.Ok? ==>
      var c := FindComplaint(s.complaints, id).value;
      var s' := r.value.state;
      && r.value.pointsAwarded == 0
      && s'.users == s.users
      && FindComplaint(s'.complaints, id) == Some(c.(status := Rejected, updatedAt := now))
      && (forall o :: o != id ==> FindComplaint(s'.complaints, o) == FindComplaint(s.complaints, o))
      && s'.history == s.history + [HistoryEntry(id, Rejected, c.department, now)]
      && |s'.notifications| == |s.notifications| + 1
      && s'.notifications[..|s.notifications|] == s.notifications
      && s'.notifications[|s.notifications|].userId == c.userId
      && s'.notifications[|s.notifications|].kind == Warning
      && s'.notifications[|s.notifications|].title == RejectedTitle
      && s'.notifications[|s.notifications|].message == RejectedMessage
      && s'.notifications[|s.notifications|].complaintId == Some(id)
      && s'.nextUserId == s.nextUserId && s'.nextComplaintId == s.nextComplaintId
  {
    if !IsAdmin(s, actor) then Err(AccessDenied)
    else match FindComplaint(s.complaints, id)
      case None => Err(ComplaintNotFound)
      case Some(c) =>
        var f := (x: Complaint) => x.(status := Rejected, updatedAt := now);
        var note := Notification(c.userId, RejectedTitle, RejectedMessage, Warning, Some(id), now);
        Ok(Transition(
          s.(complaints := Rewrite(s.complaints, id, f),
             history := s.history + [HistoryEntry(id, Rejected, c.department, now)],
             notifications := s.notifications + [note]),
          0))
  }

  /** How many elements have `key` equal to `Some(k)`. */
  function KeyCount<T>(s: seq<T>, key: T -> Option<string>, k: string): nat {
    if |s| == 0 then 0
    else (if key(s[0]) == Some(k) then 1 else 0) + KeyCount(s[1..], key, k)
  }

  /** SQL `whereNotNull(key).groupBy(key).count()`: one entry per non-null
      key value that occurs, holding how many rows carry it. */
  function GroupCount<T>(s: seq<T>, key: T -> Option<string>): (m: map<string, nat>)
    ensures forall k :: k in m <==> exists i :: 0 <= i < |s| && key(s[i]) == Some(k)
    ensures forall k :: k in m ==> m[k] == KeyCount(s, key, k) && m[k] > 0
    ensures forall k :: k !in m ==> KeyCount(s, key, k) == 0
  {
    if |s| == 0 then map[]
    else
      var m := GroupCount(s[1..], key);
      assert forall i :: 0 <= i < |s[1..]| ==> s[1..][i] == s[i + 1];
      match key(s[0])
      case None => m
      case Some(k0) => m[k0 := Lookup(m, k0) + 1]
  }

  /** A count looked up in a grouped result; 0 when the group is absent. */
  function Lookup(m: map<string, nat>, k: string): nat {
    if k in m then m[k] else 0
  }

  function StatusKey(c: Complaint): Option<string> {
    Some(c.status)
  }

  function DepartmentKey(c: Complaint): Option<string> {
    c.department
  }

  /** The response of GET /admin/dashboard/stats. */
  datatype Stats = Stats(
    total: nat,
    pending: nat,
    inProgress: nat,
    resolved: nat,
    totalUsers: nat,
    recent: seq<Complaint>,
    byDepartment: map<string, nat>,
    byStatus: map<string, nat>)

  lemma {:induction false} StatusCountIsGroup(cs: seq<Complaint>, k: string)
    ensures Seqs.Count(cs, (c: Complaint) => c.status == k) == KeyCount(cs, StatusKey, k)
  {
    if |cs| > 0 {
      StatusCountIsGroup(cs[1..], k);
    }
  }

  lemma {:induction false} ResolvedCountIsGroup(cs: seq<Complaint>)
    ensures Seqs.Count(cs, (c: Complaint) => c.status == Resolved || c.status == Completed)
         == KeyCount(cs, StatusKey, Resolved) + KeyCount(cs, StatusKey, Completed)
  {
    if |cs| > 0 {
      ResolvedCountIsGroup(cs[1..]);
    }
  }

  /** SQL `where({ status: k }).count()`, with its agreement with the grouped
      count. */
  function CountWithStatus(cs: seq<Complaint>, k: string): (n: nat)
    ensures n == KeyCount(cs, StatusKey, k)
  {
    StatusCountIsGroup(cs, k);
    Seqs.Count(cs, (c: Complaint) => c.status == k)
  }

  /** SQL `whereIn('status', ['resolved', 'completed']).count()`. */
  function CountResolved(cs: seq<Complaint>): (n: nat)
    ensures n == KeyCount(cs, StatusKey, Resolved) + KeyCount(cs, StatusKey, Completed)
  {
    ResolvedCountIsGroup(cs);
    Seqs.Count(cs, (c: Complaint) => c.status == Resolved || c.status == Completed)
  }

  /** SQL `orderBy('created_at', 'desc').limit(5)`: the five newest
      complaints, newest first. */
  function RecentComplaints(cs: seq<Complaint>): (r: seq<Complaint>)
    ensures |r| == if |cs| < 5 then |cs| else 5
    ensures Seqs.SortedDesc(r, (c: Complaint) => c.createdAt)
    ensures multiset(r) <= multiset(cs)
    ensures forall x, e :: x in multiset(cs) - multiset(r) && e in r ==> e.createdAt >= x.createdAt
  {
    var newest := Seqs.SortDesc(cs, (c: Complaint) => c.createdAt);
    Seqs.TakeKeepsTop(newest, 5, (c: Complaint) => c.createdAt);
    Seqs.Take(newest, 5)
  }

  /** A looked-up group count is the number of rows carrying the key. */
  lemma LookupIsKeyCount<T>(s: seq<T>, key: T -> Option<string>, k: string)
    ensures Lookup(GroupCount(s, key), k) == KeyCount(s, key, k)
  {
  }

  /** The status groups are exactly the statuses some complaint has. */
  lemma StatusGroups(cs: seq<Complaint>)
    ensures forall k :: k in GroupCount(cs, StatusKey) <==> exists i :: 0 <= i < |cs| && cs[i].status == k
  {
    assert forall i :: 0 <= i < |cs| ==> StatusKey(cs[i]) == Some(cs[i].status);
  }

  /** The department groups are exactly the departments some complaint has. */
  lemma DepartmentGroups(cs: seq<Complaint>)
    ensures forall d :: d in GroupCount(cs, DepartmentKey) <==> exists i :: 0 <= i < |cs| && cs[i].department == Some(d)
  {
    assert forall i :: 0 <= i < |cs| ==> DepartmentKey(cs[i]) == cs[i].department;
  }

  /** The dashboard counts. `pending` is the `submitted` complaints only,
      `resolved` covers both `resolved` and `completed`, and each agrees with
      the per-status grouping; `recent` is the five newest complaints. */
  function DashboardStats(s: State, actor: UserId): (r: Result<Stats, AdminError>)
    ensures r.Err? <==> !IsAdmin(s, actor)
    ensures r.Err? ==> r.error == AccessDenied
    ensures r.Ok? ==>
      var st := r.value;
      && st.total == |s.complaints|
      && st.totalUsers == |s.users|
      && st.byStatus == GroupCount(s.complaints, StatusKey)
      && st.byDepartment == GroupCount(s.complaints, DepartmentKey)
      && (forall k :: k in st.byStatus ==> st.byStatus[k] == KeyCount(s.complaints, StatusKey, k))
      && (forall d :: d in st.byDepartment ==> st.byDepartment[d] == KeyCount(s.complaints, DepartmentKey, d))
      && st.pending == KeyCount(s.complaints, StatusKey, Submitted)
      && st.inProgress == KeyCount(s.complaints, StatusKey, InProgress)
      && st.resolved == KeyCount(s.complaints, StatusKey, Resolved) + KeyCount(s.complaints, StatusKey, Completed)
      && st.pending == Lookup(st.byStatus, Submitted)
      && st.inProgress == Lookup(st.byStatus, InProgress)
      && st.resolved == Lookup(st.byStatus, Resolved) + Lookup(st.byStatus, Completed)
      && (forall k :: k in st.byStatus <==> exists i :: 0 <= i < |s.complaints| && s.complaints[i].status == k)
      && (forall d :: d in st.byDepartment <==>
            exists i :: 0 <= i < |s.complaints| && s.complaints[i].department == Some(d))
      && st.recent == RecentComplaints(s.complaints)
  {
    if !IsAdmin(s, actor) then Err(AccessDenied)
    else
      var cs := s.complaints;
      LookupIsKeyCount(cs, StatusKey, Submitted);
      LookupIsKeyCount(cs, StatusKey, InProgress);
      LookupIsKeyCount(cs, StatusKey, Resolved);
      LookupIsKeyCount(cs, StatusKey, Completed);
      StatusGroups(cs);
      DepartmentGroups(cs);
      Ok(Stats(
        |cs|,
        CountWithStatus(cs, Submitted),
        CountWithStatus(cs, InProgress),
        CountResolved(cs),
        |s.users|,
        RecentComplaints(cs),
        GroupCount(cs, DepartmentKey),
        GroupCount(cs, StatusKey)))
  }
}

=== FILE: auth.dfy ===
/** The account routes: registration, login and the profile with its
    computed rank. Password hashing and its check are parameters; whether
    the token-signing secret is configured is a flag. */
module AuthRoutes {
  import opened Wrappers
  import opened Model
  import Seqs

  datatype RegisterOutcome = Registered(user: User) | EmailExists | UsernameExists | RegisterMisconfigured

  /** The tables after POST /auth/register and what it responded. */
  datatype Registration = Registration(state: State, outcome: RegisterOutcome)

  predicate EmailTaken(users: seq<User>, email: string) {
    exists i :: 0 <= i < |users| && users[i].email == email
  }

  predicate UsernameTaken(users: seq<User>, username: string) {
    exists i :: 0 <= i < |users| && users[i].username == username
  }

  /** POST /auth/register. A taken email is reported before a taken
      username, and neither inserts anything. Otherwise the user row is
      inserted before the secret is checked, so a missing secret reports a
      server error with the account already created. */
  function Register(s: State, username: string, displayName: string, email: string, password: string,
                    secretSet: bool, hash: string -> string): (r: Registration)
    ensures EmailTaken(s.users, email) ==> r == Registration(s, EmailExists)
    ensures !EmailTaken(s.users, email) && UsernameTaken(s.users, username) ==> r == Registration(s, UsernameExists)
    ensures !EmailTaken(s.users, email) && !UsernameTaken(s.users, username) ==>
      && |r.state.users| == |s.users| + 1
      && r.state.users[..|s.users|] == s.users
      && r.state.users[|s.users|].id == s.nextUserId
      && r.state.users[|s.users|].email == email
      && r.state.users[|s.users|].username == username
      && r.state.users[|s.users|].displayName == displayName
      && r.state.users[|s.users|].passwordHash == hash(password)
      && r.state.users[|s.users|].points == 0
      && !r.state.users[|s.users|].isAdmin
      && r.state.nextUserId == s.nextUserId + 1
      && r.state.nextComplaintId == s.nextComplaintId
      && r.state.complaints == s.complaints && r.state.history == s.history
      && r.state.notifications == s.notifications
      && (secretSet ==> r.outcome == Registered(r.state.users[|s.users|]))
      && (!secretSet ==> r.outcome == RegisterMisconfigured)
  {
    if EmailTaken(s.users, email) then Registration(s, EmailExists)
    else if UsernameTaken(s.users, username) then Registration(s, UsernameExists)
    else
      var u := User(s.nextUserId, username, displayName, email, hash(password),
                    0, None, 0, false, false, None);
      var s' := s.(users := s.users + [u], nextUserId := s.nextUserId + 1);
      if !secretSet then Registration(s', RegisterMisconfigured)
      else Registration(s', Registered(u))
  }

  /** The first user row with this email. */
  function FindByEmail(users: seq<User>, email: string): (r: Option<User>)
    ensures r.Some? ==> r.value in users && r.value.email == email
    ensures r.None? <==> !EmailTaken(users, email)
    ensures r.Some? ==> exists k :: 0 <= k < |users| && users[k] == r.value
                                   && forall j :: 0 <= j < k ==> users[j].email != email
  {
    if |users| == 0 then None
    else if users[0].email == email then Some(users[0])
    else
      var r := FindByEmail(users[1..], email);
      assert forall i :: 0 <= i < |users| - 1 ==> users[1..][i] == users[i + 1];
      r
  }

  datatype LoginOutcome = LoggedIn(user: User) | InvalidCredentials | LoginMisconfigured

  /** POST /auth/login. An unknown email and a wrong password give the same
      answer, so the response does not reveal which accounts exist. */
  function Login(s: State, email: string, password: string, secretSet: bool,
                 verify: (string, string) -> bool): (r: LoginOutcome)
    ensures !EmailTaken(s.users, email) ==> r == InvalidCredentials
    ensures EmailTaken(s.users, email) && !verify(password, FindByEmail(s.users, email).value.passwordHash) ==>
      r == InvalidCredentials
    ensures r.LoggedIn? <==>
      EmailTaken(s.users, email) && verify(password, FindByEmail(s.users, email).value.passwordHash) && secretSet
    ensures r.LoggedIn? ==> r.user in s.users && r.user.email == email
    ensures r.LoggedIn? ==> r.user == FindByEmail(s.users, email).value
    ensures r == LoginMisconfigured <==>
      EmailTaken(s.users, email) && verify(password, FindByEmail(s.users, email).value.passwordHash) && !secretSet
  {
    match FindByEmail(s.users, email)
    case None => InvalidCredentials
    case Some(u) =>
      if !verify(password, u.passwordHash) then InvalidCredentials
      else if !secretSet then LoginMisconfigured
      else LoggedIn(u)
  }

  /** Users counted ahead of someone with `points`: non-admins with
      strictly more. Department accounts are counted. */
  function Ahead(points: nat): (ahead: User -> bool)
    ensures forall u :: ahead(u) <==> !u.isAdmin && u.points > points
  {
    (u: User) => !u.isAdmin && u.points > points
  }

  /** The profile rank: one more than the number of users ahead. */
  function ProfileRank(users: seq<User>, me: User): (r: nat)
    ensures 1 <= r <= |users| + 1
  {
    Seqs.Count(users, Ahead(me.points)) + 1
  }

  /** GET /auth/profile for the authenticated user. */
  function Profile(s: State, userId: UserId): (r: Result<(User, nat), string>)
    ensures r.Err? <==> FindUser(s.users, userId).None?
    ensures r.Err? ==> r.error == "User not found"
    ensures r.Ok? ==> r.value.0 == FindUser(s.users, userId).value && r.value.1 >= 1
    ensures r.Ok? ==> r.value.1 == ProfileRank(s.users, r.value.0)
  {
    match FindUser(s.users, userId)
    case None => Err("User not found")
    case Some(u) => Ok((u, ProfileRank(s.users, u)))
  }

  /** Users with equal points share a profile rank. */
  lemma ProfileRankTie(users: seq<User>, a: User, b: User)
    requires a.points == b.points
    ensures ProfileRank(users, a) == ProfileRank(users, b)
  {
  }

  /** More points never give a worse rank, and a non-admin listed in the
      table ranks strictly ahead of everyone with fewer points. */
  lemma ProfileRankOrder(users: seq<User>, a: User, b: User)
    requires a.points > b.points
    ensures ProfileRank(users, a) <= ProfileRank(users, b)
    ensures a in users && !a.isAdmin ==> ProfileRank(users, a) < ProfileRank(users, b)
  {
    Seqs.CountMonotone(users, Ahead(a.points), Ahead(b.points));
  }

  /** Rank 1 is exactly having no non-admin ahead. */
  lemma ProfileRankFirst(users: seq<User>, me: User)
    ensures ProfileRank(users, me) == 1 <==> forall i :: 0 <= i < |users| ==> !Ahead(me.points)(users[i])
  {
    Seqs.FilterMembers(users, Ahead(me.points));
    if forall i :: 0 <= i < |users| ==> !Ahead(me.points)(users[i]) {
      Seqs.CountNone(users, Ahead(me.points));
    } else {
      var i :| 0 <= i < |users| && Ahead(me.points)(users[i]);
      assert users[i] in Seqs.Filter(users, Ahead(me.points));
    }
  }
}

=== FILE: authform.dfy ===
/** The client's sign-in / sign-up form handler. The network call's result
    is a parameter; alerts and the call made are the observable effects. */
module AuthForm {
  import opened Wrappers

  datatype Form = Form(
    isLogin: bool,
    email: string,
    password: string,
    confirmPassword: string,
    name: string,
    username: string)

  /** What the API call did: answered (with its `success` flag) or threw. */
  datatype Reply = Answered(success: bool) | Threw(message: string)

  datatype Call = LoginCall(email: string, password: string)
                | RegisterCall(username: string, displayName: string, email: string, password: string)

  datatype Alert = Alert(title: string, message: string)

  /** One press of the submit button: the call made, the alert shown, and
      whether `loading` is still set afterwards. */
  datatype Attempt = Attempt(call: Option<Call>, alert: Option<Alert>, loadingAfter: bool)

  const MinPasswordLength: nat := 6
  const FillAllFields: string := "Please fill in all fields"
  const PasswordsDiffer: string := "Passwords do not match"
  const PasswordTooShort: string := "Password must be at least 6 characters"
  const GenericFailure: string := "An error occurred. Please try again."

  /** The first validation failure of the form, checked in order: an empty
      field, then mismatched passwords (sign-up only), then a short password
      (sign-up only). */
  function ValidationError(f: Form): (r: Option<string>)
    ensures f.isLogin ==> (r.Some? <==> f.email == "" || f.password == "")
    ensures r.Some? ==> r.value in {FillAllFields, PasswordsDiffer, PasswordTooShort}
    ensures !f.isLogin ==>
      (r.None? <==> && f.name != "" && f.username != "" && f.email != "" && f.password != ""
                    && f.confirmPassword != "" && f.password == f.confirmPassword
                    && |f.password| >= MinPasswordLength)
    ensures !f.isLogin && (f.name == "" || f.username == "" || f.email == "" || f.password == "" || f.confirmPassword == "")
      ==> r == Some(FillAllFields)
    ensures !f.isLogin && f.name != "" && f.username != "" && f.email != "" && f.password != ""
            && f.confirmPassword != "" && f.password != f.confirmPassword
      ==> r == Some(PasswordsDiffer)
    ensures !f.isLogin && f.name != "" && f.username != "" && f.email != "" && f.password != ""
            && f.confirmPassword != "" && f.password == f.confirmPassword && |f.password| < MinPasswordLength
      ==> r == Some(PasswordTooShort)
    ensures r == Some(PasswordsDiffer) ==> !f.isLogin && f.password != f.confirmPassword
    ensures r == Some(PasswordTooShort) ==> !f.isLogin && f.password == f.confirmPassword && f.password != ""
  {
    if f.isLogin then
      if f.email == "" || f.password == "" then Some(FillAllFields) else None
    else if f.name == "" || f.username == "" || f.email == "" || f.password == "" || f.confirmPassword == "" then
      Some(FillAllFields)
    else if f.password != f.confirmPassword then Some(PasswordsDiffer)
    else if |f.password| < MinPasswordLength then Some(PasswordTooShort)
    else None
  }

  /** The request a valid form sends. */
  function CallFor(f: Form): (c: Call)
    ensures c.LoginCall? <==> f.isLogin
    ensures c.LoginCall? ==> c.email == f.email && c.password == f.password
    ensures c.RegisterCall? ==>
      c.username == f.username && c.displayName == f.name && c.email == f.email && c.password == f.password
  {
    if f.isLogin then LoginCall(f.email, f.password)
    else RegisterCall(f.username, f.name, f.email, f.password)
  }

  /** `handleAuth`. A press while a request is in flight does nothing. Any
      other press ends with `loading` cleared, whether validation failed,
      the call answered, or it threw; the API is called exactly when the
      form validates. */
  function HandleAuth(loading: bool, f: Form, reply: Reply): (r: Attempt)
    ensures loading ==> r == Attempt(None, None, true)
    ensures !loading ==> !r.loadingAfter
    ensures !loading ==> (r.call.Some? <==> ValidationError(f).None?)
    ensures r.call.Some? ==> r.call.value == CallFor(f)
    ensures r.call.Some? ==> (r.call.value.LoginCall? <==> f.isLogin)
    ensures !loading && ValidationError(f).Some? ==> r.alert == Some(Alert("Error", ValidationError(f).value))
    ensures r.call.Some? && reply.Threw? ==>
      r.alert == Some(Alert("Error", if reply.message != "" then reply.message else GenericFailure))
    ensures r.call.Some? && reply.Answered? ==> (r.alert.Some? <==> reply.success)
  {
    if loading then Attempt(None, None, true)
    else match ValidationError(f)
      case Some(message) => Attempt(None, Some(Alert("Error", message)), false)
      case None =>
        var alert := match reply
          case Threw(message) => Some(Alert("Error", if message != "" then message else GenericFailure))
          case Answered(success) =>
            if !success then None
            else if f.isLogin then Some(Alert("Success", "Logged in successfully!"))
            else Some(Alert("Success", "Account created successfully!"));
        Attempt(Some(CallFor(f)), alert, false)
  }

  /** Whatever the form and the reply, a register request only ever carries
      five filled fields and a confirmed password of at least 6 characters. */
  lemma RegisterOnlyWhenValid(loading: bool, f: Form, reply: Reply)
    ensures var r := HandleAuth(loading, f, reply);
      r.call.Some? && r.call.value.RegisterCall? ==>
        && r.call.value.username == f.username && r.call.value.displayName == f.name
        && r.call.value.email == f.email && r.call.value.password == f.password
        && r.call.value.username != "" && r.call.value.displayName != "" && r.call.value.email != ""
        && r.call.value.password == f.confirmPassword
        && |r.call.value.password| >= MinPasswordLength
  {
  }
}

=== FILE: complaints.dfy ===
/** The citizen-facing complaint routes: creating a complaint, listing
    complaints with their history, and this file's own user leaderboard. */
module ComplaintRoutes {
  import opened Wrappers
  import opened Model
  import MediaUrls
  import Seqs

  /** The body of POST /complaints. Absent fields are `None`. */
  datatype NewComplaint = NewComplaint(
    title: string,
    description: string,
    category: string,
    location: string,
    imageUri: Option<string>,
    imageBase64: Option<string>,
    aiCategorized: Option<bool>,
    latitude: Option<real>,
    longitude: Option<real>)

  /** `value || null` on a coordinate: a missing value and 0 are both falsy
      and are stored as NULL; any other number is stored as given. */
  function StoredCoordinate(v: Option<real>): (r: Option<real>)
    ensures r.None? <==> v.None? || v.value == 0.0
    ensures r.Some? ==> r == v
  {
    if v.Some? && v.value != 0.0 then v else None
  }

  /** The image the new row stores: the hosted URL when a base64 image was
      sent and its upload succeeded, otherwise the client's own `imageUri`. */
  function StoredImage(req: NewComplaint, host: (string, string) -> Option<string>): (r: Option<string>)
    ensures !Present(req.imageBase64) ==> r == req.imageUri
    ensures Present(req.imageBase64) ==>
      var upload := MediaUrls.UploadBase64Image(req.imageBase64.value, None, host);
      && (upload.Ok? ==> r == Some(upload.value))
      && (upload.Err? ==> r == req.imageUri)
  {
    if Present(req.imageBase64) then
      match MediaUrls.UploadBase64Image(req.imageBase64.value, None, host)
      case Ok(url) => Some(url)
      case Err(_) => req.imageUri
    else req.imageUri
  }

  /** POST /complaints for the authenticated user `userId`. The new complaint
      starts `submitted` with 0 points and no department, one `submitted`
      history row is appended, and only the creator's submission count moves. */
  function Create(s: State, userId: UserId, req: NewComplaint, host: (string, string) -> Option<string>, now: Time)
    : (r: (State, Complaint))
    ensures var (s', c) := r;
      && c.id == s.nextComplaintId && c.userId == userId
      && c.status == Submitted && c.points == 0 && c.department == None
      && c.rejectionReason == None
      && c.title == req.title && c.description == req.description
      && c.category == req.category && c.location == req.location
      && c.imageUri == StoredImage(req, host)
      && (c.aiCategorized <==> req.aiCategorized == Some(true))
      && c.latitude == StoredCoordinate(req.latitude)
      && c.longitude == StoredCoordinate(req.longitude)
      && c.submittedDate == now && c.createdAt == now && c.updatedAt == now
      && s'.complaints == s.complaints + [c]
      && s'.nextComplaintId == s.nextComplaintId + 1
      && s'.history == s.history + [HistoryEntry(c.id, Submitted, None, now)]
      && |s'.notifications| == |s.notifications| + 1
      && s'.notifications[..|s.notifications|] == s.notifications
      && s'.notifications[|s.notifications|].userId == userId
      && s'.notifications[|s.notifications|].kind == Success
      && |s'.users| == |s.users|
      && (forall i :: 0 <= i < |s.users| && s.users[i].id != userId ==> s'.users[i] == s.users[i])
      && (forall i :: 0 <= i < |s.users| && s.users[i].id == userId ==>
            s'.users[i] == s.users[i].(submissionsCount := s.users[i].submissionsCount + 1))
      && s'.nextUserId == s.nextUserId
  {
    var id := s.nextComplaintId;
    var c := Complaint(
      id, userId, req.title, req.description, req.category, req.location,
      StoredImage(req, host), Submitted, 0, None, req.aiCategorized.GetOr(false),
      StoredCoordinate(req.latitude), StoredCoordinate(req.longitude), None, now, now, now);
    var note := Notification(userId, "Submission Received",
      "Your complaint \"" + req.title + "\" has been submitted successfully.", Success, Some(id), now);
    (s.(complaints := s.complaints + [c],
        nextComplaintId := id + 1,
        history := s.history + [HistoryEntry(id, Submitted, None, now)],
        notifications := s.notifications + [note],
        users := AddSubmission(s.users, userId)),
     c)
  }

  /** A complaint as the list responds with it, with its history. */
  datatype ComplaintView = ComplaintView(complaint: Complaint, history: seq<HistoryEntry>)

  /** `where({ complaint_id }).orderBy('date', 'asc')`: a complaint's history
      rows, oldest first. */
  function HistoryOf(history: seq<HistoryEntry>, id: ComplaintId): (r: seq<HistoryEntry>)
    ensures forall e :: multiset(r)[e] == if e.complaintId == id then multiset(history)[e] else 0
    ensures forall i, j :: 0 <= i < j < |r| ==> r[i].date <= r[j].date
    ensures forall i :: 0 <= i < |r| ==> r[i].complaintId == id && r[i] in history
  {
    var mine := Seqs.Filter(history, (e: HistoryEntry) => e.complaintId == id);
    var r := Seqs.SortDesc(mine, (e: HistoryEntry) => -(e.date as int));
    Seqs.FilterMultiset(history, (e: HistoryEntry) => e.complaintId == id);
    Seqs.FilterMembers(history, (e: HistoryEntry) => e.complaintId == id);
    assert forall i :: 0 <= i < |r| ==> r[i] in multiset(mine);
    r
  }

  function ComplaintsOf(views: seq<ComplaintView>): (r: seq<Complaint>)
    ensures |r| == |views|
    ensures forall i :: 0 <= i < |views| ==> r[i] == views[i].complaint
  {
    seq(|views|, i requires 0 <= i < |views| => views[i].complaint)
  }

  /** Each complaint with its own history, in the given order. */
  function Views(cs: seq<Complaint>, history: seq<HistoryEntry>): (r: seq<ComplaintView>)
    ensures ComplaintsOf(r) == cs
    ensures forall i :: 0 <= i < |r| ==> r[i].history == HistoryOf(history, r[i].complaint.id)
  {
    var r := seq(|cs|, i requires 0 <= i < |cs| => ComplaintView(cs[i], HistoryOf(history, cs[i].id)));
    assert ComplaintsOf(r) == cs;
    r
  }

  /** GET /complaints: every complaint, or only `userId`'s when it is given,
      newest first, each with its own history oldest first. */
  function ListComplaints(s: State, userId: Option<UserId>): (r: seq<ComplaintView>)
    ensures forall c ::
      multiset(ComplaintsOf(r))[c] == (if userId.None? || c.userId == userId.value then multiset(s.complaints)[c] else 0)
    ensures forall i, j :: 0 <= i < j < |r| ==> r[i].complaint.createdAt >= r[j].complaint.createdAt
    ensures forall i :: 0 <= i < |r| ==> r[i].history == HistoryOf(s.history, r[i].complaint.id)
  {
    var chosen := Seqs.Filter(s.complaints, (c: Complaint) => userId.None? || c.userId == userId.value);
    var ordered := Seqs.SortDesc(chosen, (c: Complaint) => c.createdAt);
    Seqs.FilterMultiset(s.complaints, (c: Complaint) => userId.None? || c.userId == userId.value);
    var r := Views(ordered, s.history);
    assert multiset(ComplaintsOf(r)) == multiset(chosen);
    r
  }

  /** `entries` lists the rows `top`, which are drawn from `users` and have
      at least the points of every row left out. */
  ghost predicate ListsTopUsers(users: seq<User>, top: seq<User>, entries: seq<LeaderboardEntry>) {
    && |top| == |entries|
    && multiset(top) <= multiset(users)
    && (forall i :: 0 <= i < |entries| ==> entries[i] == EntryOf(top[i], top[i].rank))
    && (forall x, e :: x in multiset(users) - multiset(top) && e in top ==> e.points >= x.points)
  }

  /** The response rows for `rows`, each carrying its stored rank. */
  function StoredRankEntries(rows: seq<User>): (r: seq<LeaderboardEntry>)
    ensures |r| == |rows|
    ensures forall i :: 0 <= i < |rows| ==> r[i] == EntryOf(rows[i], rows[i].rank)
  {
    seq(|rows|, i requires 0 <= i < |rows| => EntryOf(rows[i], rows[i].rank))
  }

  /** The 50 highest-scoring rows, listed with their stored ranks, are the
      top users of the table. */
  lemma TopUsersListed(users: seq<User>)
    ensures var top := Seqs.Top(users, 50, ByPoints);
      ListsTopUsers(users, top, StoredRankEntries(top))
  {
  }

  /** GET /complaints/api/leaderboard: every user row, admins included, by
      points descending, at most 50, each with the stored `rank` column. */
  function StoredRankLeaderboard(users: seq<User>): (r: seq<LeaderboardEntry>)
    ensures |r| == if |users| < 50 then |users| else 50
    ensures forall i, j :: 0 <= i < j < |r| ==> r[i].points >= r[j].points
    ensures exists top :: ListsTopUsers(users, top, r)
  {
    var top := Seqs.Top(users, 50, ByPoints);
    TopUsersListed(users);
    StoredRankEntries(top)
  }
}

=== FILE: ledger.dfy ===
/** The `department_points_history` table: department awards, at most one
    per (complaint, status) pair, enforced by a unique constraint. Only the
    table's constraints are modelled: no route of the server writes to it. */
module AwardLedger {
  import opened Wrappers

  type Time = nat

  /** A column value in an insert: left out (the column default applies),
      an explicit NULL, or a value. */
  datatype Field<T> = Omitted | Null | Given(value: T)

  datatype AwardRow = AwardRow(
    complaintId: int,
    department: string,
    status: string,
    pointsAwarded: int,
    date: Time)

  datatype AwardInsert = AwardInsert(
    complaintId: Field<int>,
    department: Field<string>,
    status: Field<string>,
    pointsAwarded: Field<int>,
    date: Field<Time>)

  datatype LedgerError =
    | NotNullViolation(column: string)
    | ValueTooLong(column: string)
    | OutOfRange(column: string)
    | UniqueViolation

  /** knex's `string` columns are `varchar(255)` and its `integer` columns
      are 32-bit signed integers. */
  const MaxVarchar: nat := 255
  const MinInteger: int := -0x8000_0000
  const MaxInteger: int := 0x7FFF_FFFF

  predicate FitsInteger(f: Field<int>) {
    f.Given? ==> MinInteger <= f.value <= MaxInteger
  }

  predicate FitsVarchar(f: Field<string>) {
    f.Given? ==> |f.value| <= MaxVarchar
  }

  /** The table, keyed by its unique (complaint_id, status) pair. */
  type Ledger = map<(int, string), AwardRow>

  /** Every row is stored under its own (complaint_id, status). */
  ghost predicate WellKeyed(l: Ledger) {
    forall k :: k in l ==> (l[k].complaintId, l[k].status) == k
  }

  /** The unique constraint as a property of rows: two rows with the same
      complaint and status are the same entry. */
  ghost predicate UniquePairs(l: Ledger) {
    forall k1, k2 :: k1 in l && k2 in l && l[k1].complaintId == l[k2].complaintId && l[k1].status == l[k2].status
      ==> k1 == k2
  }

  /** Every stored value fits its column's declared type. */
  ghost predicate Typed(l: Ledger) {
    forall k :: k in l ==>
      && MinInteger <= l[k].complaintId <= MaxInteger
      && |l[k].department| <= MaxVarchar
      && |l[k].status| <= MaxVarchar
      && MinInteger <= l[k].pointsAwarded <= MaxInteger
  }

  lemma WellKeyedIsUnique(l: Ledger)
    requires WellKeyed(l)
    ensures UniquePairs(l)
  {
  }

  /** The first NOT NULL column, in declaration order, left without a value. */
  function MissingColumn(row: AwardInsert): (r: Option<string>)
    ensures r.None? <==> row.complaintId.Given? && row.department.Given? && row.status.Given?
                         && !row.pointsAwarded.Null? && !row.date.Null?
  {
    if !row.complaintId.Given? then Some("complaint_id")
    else if !row.department.Given? then Some("department")
    else if !row.status.Given? then Some("status")
    else if row.pointsAwarded.Null? then Some("points_awarded")
    else if row.date.Null? then Some("date")
    else None
  }

  /** The first value, in declaration order, that does not fit its column:
      an integer outside 32 bits or a string longer than 255 characters. */
  function BadValue(row: AwardInsert): (r: Option<LedgerError>)
    ensures r.None? <==> FitsInteger(row.complaintId) && FitsVarchar(row.department)
                         && FitsVarchar(row.status) && FitsInteger(row.pointsAwarded)
    ensures r.Some? ==> r.value.ValueTooLong? || r.value.OutOfRange?
    ensures r == Some(OutOfRange("complaint_id")) <==> !FitsInteger(row.complaintId)
  {
    if !FitsInteger(row.complaintId) then Some(OutOfRange("complaint_id"))
    else if !FitsVarchar(row.department) then Some(ValueTooLong("department"))
    else if !FitsVarchar(row.status) then Some(ValueTooLong("status"))
    else if !FitsInteger(row.pointsAwarded) then Some(OutOfRange("points_awarded"))
    else None
  }

  /** An insert into the table: rejected for a NULL in a NOT NULL column, for
      a value its column's type cannot hold, or for a (complaint, status)
      pair already present; otherwise the row is added with
      `points_awarded` defaulting to 0 and `date` to `now`, and every other
      row is untouched. */
  function Insert(l: Ledger, row: AwardInsert, now: Time): (r: Result<Ledger, LedgerError>)
    ensures MissingColumn(row).Some? ==> r == Err(NotNullViolation(MissingColumn(row).value))
    ensures MissingColumn(row).None? && BadValue(row).Some? ==> r == Err(BadValue(row).value)
    ensures MissingColumn(row).None? && BadValue(row).None? && (row.complaintId.value, row.status.value) in l ==>
      r == Err(UniqueViolation)
    ensures r.Ok? <==>
      MissingColumn(row).None? && BadValue(row).None? && (row.complaintId.value, row.status.value) !in l
    ensures r.Ok? ==>
      var key := (row.complaintId.value, row.status.value);
      && r.value.Keys == l.Keys + {key}
      && (forall k :: k in l ==> r.value[k] == l[k])
      && r.value[key].department == row.department.value
      && r.value[key].pointsAwarded == (if row.pointsAwarded.Given? then row.pointsAwarded.value else 0)
      && r.value[key].date == (if row.date.Given? then row.date.value else now)
    ensures r.Ok? && WellKeyed(l) ==> WellKeyed(r.value)
    ensures r.Ok? && Typed(l) ==> Typed(r.value)
  {
    match MissingColumn(row)
    case Some(column) => Err(NotNullViolation(column))
    case None =>
      var key := (row.complaintId.value, row.status.value);
      if BadValue(row).Some? then Err(BadValue(row).value)
      else if key in l then Err(UniqueViolation)
      else
        var points := if row.pointsAwarded.Given? then row.pointsAwarded.value else 0;
        var date := if row.date.Given? then row.date.value else now;
        Ok(l[key := AwardRow(key.0, row.department.value, key.1, points, date)])
  }

  /** Awarding twice for the same pair: the second insert always fails, and
      with the unique violation once its other values fit their columns. */
  lemma InsertTwice(l: Ledger, first: AwardInsert, second: AwardInsert, now: Time, later: Time)
    requires Insert(l, first, now).Ok?
    requires MissingColumn(second).None?
    requires second.complaintId.value == first.complaintId.value && second.status.value == first.status.value
    ensures Insert(Insert(l, first, now).value, second, later).Err?
    ensures BadValue(second).None? ==> Insert(Insert(l, first, now).value, second, later) == Err(UniqueViolation)
  {
  }
}

=== FILE: lifecycle.dfy ===
/** The routes that change the tables, taken together: any sequence of
    registrations, submissions and admin actions keeps the tables consistent
    and never takes points away from a user, and the points a user is
    credited for one complaint are the total rise of its status values. */
module Lifecycle {
  import opened Wrappers
  import opened Model
  import opened AdminRoutes
  import ComplaintRoutes
  import AuthRoutes

  /** One request to a route that writes, with the time it is handled at. */
  datatype Op =
    | SubmitStep(userId: UserId, req: ComplaintRoutes.NewComplaint, host: (string, string) -> Option<string>, now: Time)
    | AssignStep(actor: UserId, id: ComplaintId, department: Option<string>, now: Time)
    | StatusStep(actor: UserId, id: ComplaintId, status: Option<string>, department: Option<string>, now: Time)
    | RejectStep(actor: UserId, id: ComplaintId, now: Time)
    | RegisterStep(username: string, displayName: string, email: string, password: string,
                   secretSet: bool, hash: string -> string)

  /** The tables after one request; a refused request writes nothing. */
  function Apply(s: State, op: Op): State {
    match op
    case SubmitStep(userId, req, host, now) => ComplaintRoutes.Create(s, userId, req, host, now).0
    case AssignStep(actor, id, department, now) =>
      (match AssignDepartment(s, actor, id, department, now)
       case Ok(t) => t.state
       case Err(_) => s)
    case StatusStep(actor, id, status, department, now) =>
      (match UpdateStatus(s, actor, id, status, department, now)
       case Ok(t) => t.state
       case Err(_) => s)
    case RejectStep(actor, id, now) =>
      (match Reject(s, actor, id, now)
       case Ok(t) => t.state
       case Err(_) => s)
    case RegisterStep(username, displayName, email, password, secretSet, hash) =>
      AuthRoutes.Register(s, username, displayName, email, password, secretSet, hash).state
  }

  /** The tables after a sequence of requests, handled in order. */
  function Run(s: State, ops: seq<Op>): State
    decreases |ops|
  {
    if |ops| == 0 then s else Run(Apply(s, ops[0]), ops[1..])
  }

  /** With unique ids, looking up a row's id finds that row. */
  lemma FoundIsAt(cs: seq<Complaint>, i: nat)
    requires forall a, b :: 0 <= a < b < |cs| ==> cs[a].id != cs[b].id
    requires i < |cs|
    ensures FindComplaint(cs, cs[i].id) == Some(cs[i])
  {
  }

  /** An admin route that rewrites complaint `id` to status `st` and appends
      one matching history row keeps the tables consistent. */
  lemma {:induction false} RewriteKeepsValid(s: State, s': State, id: ComplaintId, e: HistoryEntry)
    requires Valid(s)
    requires |s'.users| == |s.users| && forall i :: 0 <= i < |s.users| ==> s'.users[i].id == s.users[i].id
    requires |s'.complaints| == |s.complaints|
    requires forall i :: 0 <= i < |s.complaints| ==> s'.complaints[i].id == s.complaints[i].id
    requires s'.nextUserId == s.nextUserId && s'.nextComplaintId == s.nextComplaintId
    requires FindComplaint(s'.complaints, id).Some? ==> FindComplaint(s'.complaints, id).value.status == e.status
    requires forall o :: o != id ==> FindComplaint(s'.complaints, o) == FindComplaint(s.complaints, o)
    requires e.complaintId == id && s'.history == s.history + [e]
    ensures Valid(s')
  {
    forall i | 0 <= i < |s'.complaints|
      ensures LastStatus(s'.history, s'.complaints[i].id) == Some(s'.complaints[i].status)
    {
      var o := s'.complaints[i].id;
      FoundIsAt(s'.complaints, i);
      FoundIsAt(s.complaints, i);
      LastStatusAppend(s.history, e, o);
    }
  }

  /** A submission keeps the tables consistent: the new complaint takes the
      next free id and its one history row says `submitted`. */
  lemma {:induction false} SubmitKeepsValid(s: State, userId: UserId, req: ComplaintRoutes.NewComplaint,
                                            host: (string, string) -> Option<string>, now: Time)
    requires Valid(s)
    ensures Valid(ComplaintRoutes.Create(s, userId, req, host, now).0)
  {
    var (s', c) := ComplaintRoutes.Create(s, userId, req, host, now);
    var e := HistoryEntry(c.id, Submitted, None, now);
    assert forall i :: 0 <= i < |s.users| ==> s'.users[i].id == s.users[i].id;
    forall i | 0 <= i < |s'.complaints|
      ensures LastStatus(s'.history, s'.complaints[i].id) == Some(s'.complaints[i].status)
    {
      LastStatusAppend(s.history, e, s'.complaints[i].id);
    }
  }

  /** A registration keeps the tables consistent: the new user takes the
      next free id. */
  lemma {:induction false} RegisterKeepsValid(s: State, username: string, displayName: string, email: string,
                                              password: string, secretSet: bool, hash: string -> string)
    requires Valid(s)
    ensures Valid(AuthRoutes.Register(s, username, displayName, email, password, secretSet, hash).state)
  {
    var s' := AuthRoutes.Register(s, username, displayName, email, password, secretSet, hash).state;
    if s' != s {
      assert forall i :: 0 <= i < |s.users| ==> s'.users[i] == s.users[i];
    }
  }

  /** An assignment keeps the tables consistent. */
  lemma AssignKeepsValid(s: State, actor: UserId, id: ComplaintId, department: Option<string>, now: Time)
    requires Valid(s)
    ensures var r := AssignDepartment(s, actor, id, department, now); r.Ok? ==> Valid(r.value.state)
  {
    var r := AssignDepartment(s, actor, id, department, now);
    if r.Ok? {
      RewriteKeepsValid(s, r.value.state, id, HistoryEntry(id, Assigned, department, now));
    }
  }

  /** A status update keeps the tables consistent. */
  lemma StatusKeepsValid(s: State, actor: UserId, id: ComplaintId, status: Option<string>,
                         department: Option<string>, now: Time)
    requires Valid(s)
    ensures var r := UpdateStatus(s, actor, id, status, department, now); r.Ok? ==> Valid(r.value.state)
  {
    var r := UpdateStatus(s, actor, id, status, department, now);
    if r.Ok? {
      var c := FindComplaint(s.complaints, id).value;
      var dept := if Present(department) then department else c.department;
      RewriteKeepsValid(s, r.value.state, id, HistoryEntry(id, status.value, dept, now));
    }
  }

  /** A rejection keeps the tables consistent. */
  lemma RejectKeepsValid(s: State, actor: UserId, id: ComplaintId, now: Time)
    requires Valid(s)
    ensures var r := Reject(s, actor, id, now); r.Ok? ==> Valid(r.value.state)
  {
    var r := Reject(s, actor, id, now);
    if r.Ok? {
      var c := FindComplaint(s.complaints, id).value;
      RewriteKeepsValid(s, r.value.state, id, HistoryEntry(id, Rejected, c.department, now));
    }
  }

  /** Every request keeps the tables consistent. */
  lemma {:induction false} ApplyKeepsValid(s: State, op: Op)
    requires Valid(s)
    ensures Valid(Apply(s, op))
  {
    match op
    case SubmitStep(userId, req, host, now) => SubmitKeepsValid(s, userId, req, host, now);
    case AssignStep(actor, id, department, now) => AssignKeepsValid(s, actor, id, department, now);
    case StatusStep(actor, id, status, department, now) => StatusKeepsValid(s, actor, id, status, department, now);
    case RejectStep(actor, id, now) => RejectKeepsValid(s, actor, id, now);
    case RegisterStep(username, displayName, email, password, secretSet, hash) =>
      RegisterKeepsValid(s, username, displayName, email, password, secretSet, hash);
  }

  /** Any sequence of requests keeps the tables consistent: ids stay unique
      and below the next serial, and every complaint's newest history row
      carries its current status. */
  lemma {:induction false} RunKeepsValid(s: State, ops: seq<Op>)
    requires Valid(s)
    ensures Valid(Run(s, ops))
    decreases |ops|
  {
    if |ops| > 0 {
      ApplyKeepsValid(s, ops[0]);
      RunKeepsValid(Apply(s, ops[0]), ops[1..]);
    }
  }

  /** A write that can only raise one user's points and leaves every other
      user's row as it was lowers nobody's points. */
  lemma CreditKeepsPoints(s: State, s': State, owner: UserId, u: UserId)
    requires forall v :: v != owner ==> FindUser(s'.users, v) == FindUser(s.users, v)
    requires FindUser(s.users, owner).Some? ==> PointsOf(s'.users, owner) >= PointsOf(s.users, owner)
    ensures PointsOf(s'.users, u) >= PointsOf(s.users, u)
  {
  }

  /** An assignment lowers nobody's points. */
  lemma AssignKeepsPoints(s: State, actor: UserId, id: ComplaintId, department: Option<string>, now: Time, u: UserId)
    ensures var r := AssignDepartment(s, actor, id, department, now);
      r.Ok? ==> PointsOf(r.value.state.users, u) >= PointsOf(s.users, u)
  {
    var r := AssignDepartment(s, actor, id, department, now);
    if r.Ok? {
      CreditKeepsPoints(s, r.value.state, FindComplaint(s.complaints, id).value.userId, u);
    }
  }

  /** A status update lowers nobody's points. */
  lemma StatusKeepsPoints(s: State, actor: UserId, id: ComplaintId, status: Option<string>,
                          department: Option<string>, now: Time, u: UserId)
    ensures var r := UpdateStatus(s, actor, id, status, department, now);
      r.Ok? ==> PointsOf(r.value.state.users, u) >= PointsOf(s.users, u)
  {
    var r := UpdateStatus(s, actor, id, status, department, now);
    if r.Ok? {
      CreditKeepsPoints(s, r.value.state, FindComplaint(s.complaints, id).value.userId, u);
    }
  }

  /** No request lowers any user's points. */
  lemma {:induction false} ApplyKeepsPoints(s: State, op: Op, u: UserId)
    ensures PointsOf(Apply(s, op).users, u) >= PointsOf(s.users, u)
  {
    match op
    case SubmitStep(userId, req, host, now) =>
      PointsAfterSubmission(s.users, userId, u);
    case AssignStep(actor, id, department, now) => AssignKeepsPoints(s, actor, id, department, now, u);
    case StatusStep(actor, id, status, department, now) => StatusKeepsPoints(s, actor, id, status, department, now, u);
    case RejectStep(actor, id, now) =>
    case RegisterStep(username, displayName, email, password, secretSet, hash) =>
      var s' := Apply(s, op);
      if s' != s {
        FindAfterAppend(s.users, s'.users[|s.users|], u);
        assert s'.users == s.users + [s'.users[|s.users|]];
      }
  }

  /** Points only ever grow: after any sequence of requests every user has
      at least the points they had before. */
  lemma {:induction false} RunKeepsPoints(s: State, ops: seq<Op>, u: UserId)
    ensures PointsOf(Run(s, ops).users, u) >= PointsOf(s.users, u)
    decreases |ops|
  {
    if |ops| > 0 {
      ApplyKeepsPoints(s, ops[0], u);
      RunKeepsPoints(Apply(s, ops[0]), ops[1..], u);
    }
  }

  /** Every request only appends to the history and notification tables. */
  lemma ApplyKeepsHistory(s: State, op: Op)
    ensures s.history <= Apply(s, op).history
    ensures s.notifications <= Apply(s, op).notifications
  {
    match op
    case SubmitStep(userId, req, host, now) =>
    case AssignStep(actor, id, department, now) =>
    case StatusStep(actor, id, status, department, now) =>
    case RejectStep(actor, id, now) =>
    case RegisterStep(username, displayName, email, password, secretSet, hash) =>
  }

  /** The history table is append-only: any sequence of requests keeps the
      rows it had as a prefix, and so does the notification table. */
  lemma {:induction false} RunKeepsHistory(s: State, ops: seq<Op>)
    ensures s.history <= Run(s, ops).history
    ensures s.notifications <= Run(s, ops).notifications
    decreases |ops|
  {
    if |ops| > 0 {
      ApplyKeepsHistory(s, ops[0]);
      RunKeepsHistory(Apply(s, ops[0]), ops[1..]);
    }
  }

  /** The total rise of a sequence of values: the sum of its upward steps. */
  function Ascent(xs: seq<nat>): nat
    decreases |xs|
  {
    if |xs| <= 1 then 0
    else (if xs[1] > xs[0] then xs[1] - xs[0] else 0) + Ascent(xs[1..])
  }

  /** The first step of the total rise: up to the larger of the first two
      values, then the rise of the rest. */
  lemma AscentStep(xs: seq<nat>)
    requires |xs| >= 2
    ensures xs[0] + Ascent(xs) == Max(xs[0], xs[1]) + Ascent(xs[1..])
  {
  }

  /** The first status update of a walk, as a step of the total rise. */
  lemma AscentOfTiers(p: nat, statuses: seq<string>)
    requires |statuses| >= 1
    ensures p + Ascent([p] + Tiers(statuses))
         == Max(p, StatusPoints(statuses[0])) + Ascent([StatusPoints(statuses[0])] + Tiers(statuses[1..]))
  {
    var xs := [p] + Tiers(statuses);
    assert xs[1..] == [StatusPoints(statuses[0])] + Tiers(statuses[1..]);
    AscentStep(xs);
  }

  /** Starting from its first value, a sequence's total rise reaches every
      later value. */
  lemma {:induction false} AscentCovers(xs: seq<nat>, k: nat)
    requires k < |xs|
    ensures xs[k] <= xs[0] + Ascent(xs)
    decreases |xs|
  {
    if k > 0 {
      AscentCovers(xs[1..], k - 1);
    }
  }

  /** A sequence that never falls rises by exactly its last minus its first
      value. */
  lemma {:induction false} AscentOfRising(xs: seq<nat>)
    requires |xs| >= 1
    requires forall i :: 0 <= i < |xs| - 1 ==> xs[i] <= xs[i + 1]
    ensures xs[0] + Ascent(xs) == xs[|xs| - 1]
    decreases |xs|
  {
    if |xs| > 1 {
      AscentOfRising(xs[1..]);
    }
  }

  /** From a new complaint's 0 points, a walk whose status values never fall
      rises by exactly the value of the status it ends at. */
  lemma AscentOfForwardPath(statuses: seq<string>)
    requires |statuses| >= 1
    requires forall i :: 0 <= i < |statuses| - 1 ==> StatusPoints(statuses[i]) <= StatusPoints(statuses[i + 1])
    ensures Ascent([0] + Tiers(statuses)) == StatusPoints(statuses[|statuses| - 1])
  {
    var xs := [0] + Tiers(statuses);
    AscentOfRising(xs);
    assert xs[|xs| - 1] == StatusPoints(statuses[|statuses| - 1]);
  }

  /** The status values a sequence of statuses walks through. */
  function Tiers(statuses: seq<string>): (r: seq<nat>)
    ensures |r| == |statuses|
    ensures forall i :: 0 <= i < |r| ==> r[i] == StatusPoints(statuses[i])
  {
    seq(|statuses|, i requires 0 <= i < |statuses| => StatusPoints(statuses[i]))
  }

  /** `ops` is the admin setting complaint `id` to each of `statuses` in
      turn, naming no department and never an empty status. */
  predicate StatusUpdates(ops: seq<Op>, actor: UserId, id: ComplaintId, statuses: seq<string>) {
    && |ops| == |statuses|
    && forall i :: 0 <= i < |ops| ==>
         && statuses[i] != ""
         && ops[i].StatusStep? && ops[i].actor == actor && ops[i].id == id
         && ops[i].status == Some(statuses[i]) && ops[i].department == None
  }

  lemma StatusUpdatesTail(ops: seq<Op>, actor: UserId, id: ComplaintId, statuses: seq<string>)
    requires StatusUpdates(ops, actor, id, statuses) && |ops| >= 1
    ensures StatusUpdates(ops[1..], actor, id, statuses[1..])
  {
  }

  /** One status update as the owner's ledger sees it: the complaint now
      holds the new status's value, the owner's points and the complaint's
      together grew to the larger of the old and new value, and the admin
      and the owner are still there. */
  lemma StatusStepCredits(s: State, actor: UserId, id: ComplaintId, st: string, now: Time)
    requires IsAdmin(s, actor)
    requires FindComplaint(s.complaints, id).Some?
    requires FindUser(s.users, FindComplaint(s.complaints, id).value.userId).Some?
    requires st != ""
    ensures var c := FindComplaint(s.complaints, id).value;
      var r := UpdateStatus(s, actor, id, Some(st), None, now);
      && r.Ok?
      && IsAdmin(r.value.state, actor)
      && FindComplaint(r.value.state.complaints, id).Some?
      && FindComplaint(r.value.state.complaints, id).value.userId == c.userId
      && FindComplaint(r.value.state.complaints, id).value.points == StatusPoints(st)
      && FindUser(r.value.state.users, c.userId).Some?
      && PointsOf(r.value.state.users, c.userId) + c.points == PointsOf(s.users, c.userId) + Max(c.points, StatusPoints(st))
  {
  }

  /** Walking a complaint through statuses credits its owner the total rise
      of the complaint's points, starting from what it holds now: a drop is
      never taken back, and climbing again after it is paid again. */
  lemma {:induction false} OwnerCreditIsAscent(s: State, actor: UserId, id: ComplaintId, statuses: seq<string>, ops: seq<Op>)
    requires StatusUpdates(ops, actor, id, statuses)
    requires IsAdmin(s, actor)
    requires FindComplaint(s.complaints, id).Some?
    requires FindUser(s.users, FindComplaint(s.complaints, id).value.userId).Some?
    ensures var c := FindComplaint(s.complaints, id).value;
      PointsOf(Run(s, ops).users, c.userId)
        == PointsOf(s.users, c.userId) + Ascent([c.points] + Tiers(statuses))
    decreases |statuses|
  {
    var c := FindComplaint(s.complaints, id).value;
    if |statuses| > 0 {
      var now := ops[0].now;
      StatusStepCredits(s, actor, id, statuses[0], now);
      var s1 := UpdateStatus(s, actor, id, Some(statuses[0]), None, now).value.state;
      assert Apply(s, ops[0]) == s1;
      StatusUpdatesTail(ops, actor, id, statuses);
      OwnerCreditIsAscent(s1, actor, id, statuses[1..], ops[1..]);
      AscentOfTiers(c.points, statuses);
    }
  }

  /** A user's credit from one complaint covers the highest status it was
      ever set to. */
  lemma OwnerCreditCoversEveryStatus(s: State, actor: UserId, id: ComplaintId, statuses: seq<string>, ops: seq<Op>, k: nat)
    requires StatusUpdates(ops, actor, id, statuses)
    requires IsAdmin(s, actor)
    requires FindComplaint(s.complaints, id).Some?
    requires FindUser(s.users, FindComplaint(s.complaints, id).value.userId).Some?
    requires k < |statuses|
    ensures var c := FindComplaint(s.complaints, id).value;
      PointsOf(Run(s, ops).users, c.userId) + c.points
        >= PointsOf(s.users, c.userId) + StatusPoints(statuses[k])
  {
    var c := FindComplaint(s.complaints, id).value;
    OwnerCreditIsAscent(s, actor, id, statuses, ops);
    AscentCovers([c.points] + Tiers(statuses), k + 1);
  }

  /** Moving a new complaint forward through the statuses credits exactly
      the value of the status it ends at. */
  lemma OwnerCreditOnForwardPath(s: State, actor: UserId, id: ComplaintId, statuses: seq<string>, ops: seq<Op>)
    requires StatusUpdates(ops, actor, id, statuses)
    requires IsAdmin(s, actor)
    requires FindComplaint(s.complaints, id).Some? && FindComplaint(s.complaints, id).value.points == 0
    requires FindUser(s.users, FindComplaint(s.complaints, id).value.userId).Some?
    requires |statuses| >= 1
    requires forall i :: 0 <= i < |statuses| - 1 ==> StatusPoints(statuses[i]) <= StatusPoints(statuses[i + 1])
    ensures var c := FindComplaint(s.complaints, id).value;
      PointsOf(Run(s, ops).users, c.userId)
        == PointsOf(s.users, c.userId) + StatusPoints(statuses[|statuses| - 1])
  {
    var c := FindComplaint(s.complaints, id).value;
    OwnerCreditIsAscent(s, actor, id, statuses, ops);
    AscentOfForwardPath(statuses);
  }

  /** Completed, then back to resolved, then completed again: the owner is
      credited 100 and then another 50, more than the top status is worth. */
  lemma BounceIsPaidTwice()
    ensures Ascent([0] + Tiers([Completed, Resolved, Completed])) == 150
  {
    var xs := [0] + Tiers([Completed, Resolved, Completed]);
    assert xs == [0, 100, 50, 100];
    assert Ascent(xs[2..]) == 50 by {
      assert xs[2..][1..] == [100];
    }
    assert xs[1..][1..] == xs[2..];
  }

  /** Setting the status a complaint already has credits nothing. */
  lemma RepeatedStatusAwardsNothing(s: State, actor: UserId, id: ComplaintId, st: string, t1: Time, t2: Time)
    requires IsAdmin(s, actor) && FindComplaint(s.complaints, id).Some? && st != ""
    ensures var r1 := UpdateStatus(s, actor, id, Some(st), None, t1);
      && r1.Ok?
      && var r2 := UpdateStatus(r1.value.state, actor, id, Some(st), None, t2);
      && r2.Ok? && r2.value.pointsAwarded == 0
  {
  }

  /** Assigning a department resets the complaint to 10 points, so completing
      it afterwards credits 90 more however far it had got before. */
  lemma ReassignThenCompleteAwards90(s: State, actor: UserId, id: ComplaintId, dept: string, t1: Time, t2: Time)
    requires IsAdmin(s, actor) && FindComplaint(s.complaints, id).Some? && dept != ""
    ensures var r1 := AssignDepartment(s, actor, id, Some(dept), t1);
      && r1.Ok?
      && var r2 := UpdateStatus(r1.value.state, actor, id, Some(Completed), None, t2);
      && r2.Ok? && r2.value.pointsAwarded == 90
  {
    var r1 := AssignDepartment(s, actor, id, Some(dept), t1);
    var s1 := r1.value.state;
    var c1 := FindComplaint(s1.complaints, id).value;
    assert c1.points == 10;
    assert IsAdmin(s1, actor) && Present(Some(Completed)) && FindComplaint(s1.complaints, id).Some?;
    var r2 := UpdateStatus(s1, actor, id, Some(Completed), None, t2);
    assert c1.points + r2.value.pointsAwarded == Max(c1.points, StatusPoints(Completed));
  }
}

=== FILE: media.dfy ===
/** The string handling around the image host: the data-URL prefix removed
    before an upload and the public id derived from an image URL before a
    delete. The host calls themselves are parameters. */
module MediaUrls {
  import opened Wrappers

  /** The marker `split('base64,')` cuts at. */
  const Marker: string := "base64,"
  /** What every upload is sent as: a JPEG data URL around the payload. */
  const JpegDataPrefix: string := "data:image/jpeg;base64,"
  const DefaultFolder: string := "complaints"
  const UploadFailed: string := "Failed to upload image"

  /** `pat` occurs in `s` starting at index `i`. */
  predicate OccursAt(s: string, pat: string, i: nat) {
    i + |pat| <= |s| && s[i..i + |pat|] == pat
  }

  /** `s.indexOf(pat, from)`: the first occurrence at or after `from`. */
  function IndexOfFrom(s: string, pat: string, from: nat): (r: Option<nat>)
    decreases |s| - from
    ensures r.Some? ==> from <= r.value && OccursAt(s, pat, r.value)
    ensures r.Some? ==> forall m: nat :: from <= m < r.value ==> !OccursAt(s, pat, m)
    ensures r.None? ==> forall m: nat :: from <= m ==> !OccursAt(s, pat, m)
  {
    if from + |pat| > |s| then None
    else if OccursAt(s, pat, from) then Some(from)
    else IndexOfFrom(s, pat, from + 1)
  }

  /** The text from `start` up to the next marker or the end: one piece of
      `s.split('base64,')`. It contains no marker itself. */
  function Piece(s: string, start: nat): (r: string)
    requires start <= |s|
    ensures start + |r| <= |s| && s[start .. start + |r|] == r
    ensures start + |r| == |s| || OccursAt(s, Marker, start + |r|)
    ensures forall m: nat :: !OccursAt(r, Marker, m)
  {
    var r := match IndexOfFrom(s, Marker, start)
      case None => s[start..]
      case Some(j) => s[start..j];
    assert forall m: nat :: OccursAt(r, Marker, m) ==> OccursAt(s, Marker, start + m) by {
      forall m: nat | OccursAt(r, Marker, m) ensures OccursAt(s, Marker, start + m) {
        assert s[start + m .. start + m + |Marker|] == r[m .. m + |Marker|];
      }
    }
    r
  }

  /** The payload of a base64 data URL: when `s` contains `base64,`, the
      piece after its first occurrence, which is what `s.split('base64,')[1]`
      gives; otherwise `s` itself. */
  function StripDataPrefix(s: string): (r: string)
    ensures (forall m: nat :: !OccursAt(s, Marker, m)) <==> IndexOfFrom(s, Marker, 0).None?
    ensures IndexOfFrom(s, Marker, 0).None? ==> r == s
    ensures forall m: nat :: !OccursAt(r, Marker, m)
    ensures IndexOfFrom(s, Marker, 0).Some? ==>
      var start := IndexOfFrom(s, Marker, 0).value + |Marker|;
      && start + |r| <= |s|
      && s[start .. start + |r|] == r
      && (start + |r| == |s| || OccursAt(s, Marker, start + |r|))
  {
    match IndexOfFrom(s, Marker, 0)
    case None => s
    case Some(i) => Piece(s, i + |Marker|)
  }

  /** The string handed to the image host: always the JPEG data-URL prefix
      followed by the payload. */
  function UploadPayload(base64: string): (r: string)
    ensures |r| >= |JpegDataPrefix| && r[..|JpegDataPrefix|] == JpegDataPrefix
    ensures r[|JpegDataPrefix|..] == StripDataPrefix(base64)
  {
    JpegDataPrefix + StripDataPrefix(base64)
  }

  /** Stripping is idempotent: a payload contains no marker. */
  lemma StripIdempotent(s: string)
    ensures StripDataPrefix(StripDataPrefix(s)) == StripDataPrefix(s)
  {
  }

  /** In a JPEG data URL the first marker is the one the prefix ends with. */
  lemma FirstMarkerOfDataUrl(p: string)
    ensures IndexOfFrom(JpegDataPrefix + p, Marker, 0) == Some(16)
  {
    var s := JpegDataPrefix + p;
    assert OccursAt(s, Marker, 16) by {
      assert s[16..23] == JpegDataPrefix[16..23];
    }
    assert JpegDataPrefix[..16] == "data:image/jpeg;";
    assert 'b' !in JpegDataPrefix[..16];
    forall m: nat | m < 16 ensures !OccursAt(s, Marker, m) {
      assert s[m] == JpegDataPrefix[..16][m];
    }
  }

  /** A marker after the prefix would be a marker in the payload. */
  lemma MarkerAfterPrefix(p: string, k: nat)
    requires OccursAt(JpegDataPrefix + p, Marker, 23 + k)
    ensures OccursAt(p, Marker, k)
  {
    var s := JpegDataPrefix + p;
    assert p[k .. k + |Marker|] == s[23 + k .. 23 + k + |Marker|];
  }

  /** Stripping the uploaded data URL gives back the payload: the prefix
      carries the marker and the payload carries none. */
  lemma {:induction false} StripUploadPayload(base64: string)
    ensures StripDataPrefix(UploadPayload(base64)) == StripDataPrefix(base64)
  {
    var p := StripDataPrefix(base64);
    var s := JpegDataPrefix + p;
    assert s == UploadPayload(base64);
    FirstMarkerOfDataUrl(p);
    var r := StripDataPrefix(s);
    assert 23 + |r| <= |s| && s[23 .. 23 + |r|] == r;
    assert 23 + |r| == |s| by {
      if 23 + |r| < |s| {
        MarkerAfterPrefix(p, |r|);
        assert false;
      }
    }
    assert s[23..] == p;
  }

  /** `uploadBase64Image`: uploads the data URL into `folder` (default
      `complaints`) and returns the hosted URL; any host failure is reported
      as the one message "Failed to upload image". */
  function UploadBase64Image(base64: string, folder: Option<string>, host: (string, string) -> Option<string>)
    : (r: Result<string, string>)
    ensures r.Err? ==> r.error == UploadFailed
    ensures r.Ok? <==> host(UploadPayload(base64), folder.GetOr(DefaultFolder)).Some?
    ensures r.Ok? ==> r.value == host(UploadPayload(base64), folder.GetOr(DefaultFolder)).value
  {
    match host(UploadPayload(base64), folder.GetOr(DefaultFolder))
    case Some(url) => Ok(url)
    case None => Err(UploadFailed)
  }

  /** `s.split(c)` for a one-character separator. */
  function Split(s: string, c: char): (parts: seq<string>)
    ensures |parts| >= 1
    ensures forall i :: 0 <= i < |parts| ==> c !in parts[i]
    ensures |parts[0]| <= |s| && parts[0] == s[..|parts[0]|]
    ensures |parts[0]| == |s| || s[|parts[0]|] == c
  {
    if |s| == 0 then [""]
    else if s[0] == c then [""] + Split(s[1..], c)
    else
      var rest := Split(s[1..], c);
      [[s[0]] + rest[0]] + rest[1..]
  }

  /** `parts.join(c)`. */
  function Join(parts: seq<string>, c: char): string
    requires |parts| >= 1
  {
    if |parts| == 1 then parts[0] else parts[0] + [c] + Join(parts[1..], c)
  }

  /** Splitting then joining gives the string back. */
  lemma {:induction false} JoinSplit(s: string, c: char)
    ensures Join(Split(s, c), c) == s
  {
    if |s| > 0 {
      JoinSplit(s[1..], c);
      var rest := Split(s[1..], c);
      if s[0] != c && |rest| > 1 {
        assert Split(s, c)[1..] == rest[1..];
      }
    }
  }

  /** Joining separator-free parts then splitting gives the parts back. */
  lemma {:induction false} SplitJoin(parts: seq<string>, c: char)
    requires |parts| >= 1
    requires forall i :: 0 <= i < |parts| ==> c !in parts[i]
    ensures Split(Join(parts, c), c) == parts
  {
    if |parts| == 1 {
      SplitFree(parts[0], c);
    } else {
      SplitJoin(parts[1..], c);
      SplitPrefix(parts[0], Join(parts[1..], c), c);
      assert parts == [parts[0]] + parts[1..];
    }
  }

  /** A string without the separator is one part. */
  lemma {:induction false} SplitFree(s: string, c: char)
    requires c !in s
    ensures Split(s, c) == [s]
  {
    if |s| > 0 {
      SplitFree(s[1..], c);
      assert [s[0]] + s[1..] == s;
    }
  }

  /** A separator-free head becomes the first part, the rest is split on. */
  lemma {:induction false} SplitPrefix(a: string, b: string, c: char)
    requires c !in a
    ensures Split(a + [c] + b, c) == [a] + Split(b, c)
  {
    if |a| == 0 {
      assert a + [c] + b == [c] + b;
      assert ([c] + b)[1..] == b;
    } else {
      SplitPrefix(a[1..], b, c);
      assert (a + [c] + b)[1..] == a[1..] + [c] + b;
      assert [a[0]] + a[1..] == a;
    }
  }

  /** The public id `deleteImage` destroys: the second-to-last path segment,
      a slash, and the last segment cut at its first dot. A URL without any
      slash has no second-to-last segment, and JavaScript then interpolates
      the word `undefined`. */
  function PublicId(url: string): (r: string)
    ensures var parts := Split(url, '/');
      var last := parts[|parts| - 1];
      exists folder, filename ::
        && r == folder + "/" + filename
        && '.' !in filename
        && '/' !in filename
        && |filename| <= |last|
        && filename == last[..|filename|]
        && (|filename| == |last| || last[|filename|] == '.')
        && folder == if |parts| >= 2 then parts[|parts| - 2] else "undefined"
  {
    var parts := Split(url, '/');
    var filename := Split(parts[|parts| - 1], '.')[0];
    var folder := if |parts| >= 2 then parts[|parts| - 2] else "undefined";
    folder + "/" + filename
  }

  /** On a hosted URL `.../<folder>/<name>.<ext>` the public id is
      `<folder>/<name>`. */
  lemma PublicIdOfHostedUrl(dirs: seq<string>, folder: string, name: string, ext: string)
    requires forall i :: 0 <= i < |dirs| ==> '/' !in dirs[i]
    requires '/' !in folder && '/' !in name && '/' !in ext && '.' !in name
    ensures PublicId(Join(dirs + [folder, name + "." + ext], '/')) == folder + "/" + name
  {
    var parts := dirs + [folder, name + "." + ext];
    SplitJoin(parts, '/');
    SplitPrefix(name, ext, '.');
    assert name + "." + ext == name + ['.'] + ext;
  }

  /** A URL without any slash yields `undefined/<name>`. */
  lemma PublicIdWithoutSlash(name: string, ext: string)
    requires '/' !in name && '/' !in ext && '.' !in name
    ensures PublicId(name + "." + ext) == "undefined/" + name
  {
    SplitFree(name + "." + ext, '/');
    SplitPrefix(name, ext, '.');
    assert name + "." + ext == name + ['.'] + ext;
  }
}

=== FILE: model.dfy ===
/** The database tables the routes read and write, as one immutable value.
    Each table is a sequence of rows in insertion order; database timestamps
    (`db.fn.now()`) are abstract naturals supplied by the caller. */
module Model {
  import opened Wrappers

  type UserId = nat
  type ComplaintId = nat
  type Time = nat

  /** The status names the backend writes. A status column holds any string:
      the update-status route stores whatever it is sent. */
  const Submitted: string := "submitted"
  const Assigned: string := "assigned"
  const InProgress: string := "in-progress"
  const Resolved: string := "resolved"
  const Completed: string := "completed"
  const Rejected: string := "rejected"

  /** A row of `users`. `rank` is the stored column, which no modelled code
      writes; the profile and public leaderboard compute their own ranks. */
  datatype User = User(
    id: UserId,
    username: string,
    displayName: string,
    email: string,
    passwordHash: string,
    points: nat,
    rank: Option<int>,
    submissionsCount: nat,
    isAdmin: bool,
    isDepartmentUser: bool,
    department: Option<string>)

  /** Latitude and longitude are JavaScript numbers; only their truthiness
      matters to the model, so they are kept as reals. */
  datatype Complaint = Complaint(
    id: ComplaintId,
    userId: UserId,
    title: string,
    description: string,
    category: string,
    location: string,
    imageUri: Option<string>,
    status: string,
    points: nat,
    department: Option<string>,
    aiCategorized: bool,
    latitude: Option<real>,
    longitude: Option<real>,
    rejectionReason: Option<string>,
    submittedDate: Time,
    createdAt: Time,
    updatedAt: Time)

  /** A row of `status_history`: the status a complaint moved to, the
      department at that moment, and when. */
  datatype HistoryEntry = HistoryEntry(
    complaintId: ComplaintId,
    status: string,
    department: Option<string>,
    date: Time)

  datatype NotificationType = Info | Success | Warning

  /** A row of `notifications`. */
  datatype Notification = Notification(
    userId: UserId,
    title: string,
    message: string,
    kind: NotificationType,
    complaintId: Option<ComplaintId>,
    date: Time)

  /** A row of a user leaderboard response. */
  datatype LeaderboardEntry = LeaderboardEntry(
    id: UserId,
    username: string,
    displayName: string,
    points: nat,
    rank: Option<int>,
    submissions: nat)

  /** The sort key of the user leaderboards: points, highest first. */
  function ByPoints(u: User): int {
    u.points
  }

  function EntryOf(u: User, rank: Option<int>): LeaderboardEntry {
    LeaderboardEntry(u.id, u.username, u.displayName, u.points, rank, u.submissionsCount)
  }

  /** The tables together with the next values of their serial id columns. */
  datatype State = State(
    users: seq<User>,
    complaints: seq<Complaint>,
    history: seq<HistoryEntry>,
    notifications: seq<Notification>,
    nextUserId: UserId,
    nextComplaintId: ComplaintId)

  /** `where({ id }).first()` on `users`. */
  function FindUser(users: seq<User>, id: UserId): (r: Option<User>)
    ensures r.Some? ==> r.value in users && r.value.id == id
    ensures r.None? <==> forall i :: 0 <= i < |users| ==> users[i].id != id
  {
    if |users| == 0 then None
    else if users[0].id == id then Some(users[0])
    else FindUser(users[1..], id)
  }

  /** `where({ id }).first()` on `complaints`. */
  function FindComplaint(complaints: seq<Complaint>, id: ComplaintId): (r: Option<Complaint>)
    ensures r.Some? ==> r.value in complaints && r.value.id == id
    ensures r.None? <==> forall i :: 0 <= i < |complaints| ==> complaints[i].id != id
  {
    if |complaints| == 0 then None
    else if complaints[0].id == id then Some(complaints[0])
    else FindComplaint(complaints[1..], id)
  }

  /** A request field that JavaScript treats as truthy: present and not "". */
  predicate Present(field: Option<string>) {
    field.Some? && field.value != ""
  }

  /** The points of the first user row with this id; 0 when there is none. */
  function PointsOf(users: seq<User>, id: UserId): nat {
    match FindUser(users, id)
    case Some(u) => u.points
    case None => 0
  }

  /** `where({ id }).increment('points', d)`: every matching row gains `d`. */
  function AddPoints(users: seq<User>, id: UserId, d: nat): (r: seq<User>)
    ensures |r| == |users|
    ensures forall i :: 0 <= i < |users| ==> r[i].id == users[i].id
    ensures forall i :: 0 <= i < |users| && users[i].id != id ==> r[i] == users[i]
    ensures forall i :: 0 <= i < |users| && users[i].id == id ==> r[i] == users[i].(points := users[i].points + d)
  {
    seq(|users|, i requires 0 <= i < |users| =>
      if users[i].id == id then users[i].(points := users[i].points + d) else users[i])
  }

  /** The row a successful user lookup finds: the first one with the id. */
  lemma {:induction false} FirstUserRow(users: seq<User>, id: UserId) returns (k: nat)
    requires FindUser(users, id).Some?
    ensures k < |users| && FindUser(users, id) == Some(users[k])
    ensures forall j :: 0 <= j < k ==> users[j].id != id
  {
    if users[0].id == id {
      k := 0;
    } else {
      var k' := FirstUserRow(users[1..], id);
      k := k' + 1;
    }
  }

  /** The first row with the id is what a user lookup finds. */
  lemma {:induction false} FindUserAt(users: seq<User>, id: UserId, k: nat)
    requires k < |users| && users[k].id == id
    requires forall j :: 0 <= j < k ==> users[j].id != id
    ensures FindUser(users, id) == Some(users[k])
  {
    if k > 0 {
      FindUserAt(users[1..], id, k - 1);
    }
  }

  /** Two user tables with the same ids row by row find an id at the same
      row. */
  lemma SameUserRow(users: seq<User>, r: seq<User>, id: UserId) returns (k: nat)
    requires |r| == |users| && forall i :: 0 <= i < |users| ==> r[i].id == users[i].id
    requires FindUser(users, id).Some?
    ensures k < |users| && FindUser(users, id) == Some(users[k]) && FindUser(r, id) == Some(r[k])
  {
    k := FirstUserRow(users, id);
    FindUserAt(r, id, k);
  }

  /** Incrementing one user's points adds `d` to what a lookup of that user
      finds and changes no other user's lookup. */
  lemma PointsAfterAdd(users: seq<User>, id: UserId, d: nat)
    ensures FindUser(users, id).Some? ==> PointsOf(AddPoints(users, id, d), id) == PointsOf(users, id) + d
    ensures forall other :: other != id ==> FindUser(AddPoints(users, id, d), other) == FindUser(users, other)
    ensures forall other :: FindUser(AddPoints(users, id, d), other).Some? <==> FindUser(users, other).Some?
  {
    var r := AddPoints(users, id, d);
    forall other | FindUser(users, other).Some?
      ensures other != id ==> FindUser(r, other) == FindUser(users, other)
      ensures FindUser(r, other).Some?
    {
      var k := SameUserRow(users, r, other);
    }
    if FindUser(users, id).Some? {
      var k := SameUserRow(users, r, id);
    }
  }

  /** After a points increment of `d`, the row a lookup of `id` finds is the
      row it found before with its points raised by `d` and every other
      column as it was. */
  predicate Credited(before: seq<User>, after: seq<User>, id: UserId, d: nat) {
    FindUser(before, id).Some? ==>
      && FindUser(after, id).Some?
      && FindUser(after, id).value == FindUser(before, id).value.(points := FindUser(before, id).value.points + d)
  }

  /** Incrementing a user's points leaves every other column of the row a
      lookup of that user finds. */
  lemma OwnerAfterAdd(users: seq<User>, id: UserId, d: nat)
    ensures FindUser(users, id).Some? ==> FindUser(AddPoints(users, id, d), id).Some?
    ensures FindUser(users, id).Some? ==>
      FindUser(AddPoints(users, id, d), id).value == FindUser(users, id).value.(points := FindUser(users, id).value.points + d)
  {
    if FindUser(users, id).Some? {
      var k := SameUserRow(users, AddPoints(users, id, d), id);
    }
  }

  /** An increment by nothing leaves the looked-up row as it was. */
  lemma CreditedNothing(users: seq<User>, id: UserId)
    ensures Credited(users, users, id, 0)
  {
  }

  /** Incrementing points leaves every user's admin flag as a lookup finds
      it. */
  lemma AdminsAfterAdd(users: seq<User>, id: UserId, d: nat)
    ensures forall a ::
      (FindUser(AddPoints(users, id, d), a).Some? && FindUser(AddPoints(users, id, d), a).value.isAdmin)
      <==> (FindUser(users, a).Some? && FindUser(users, a).value.isAdmin)
  {
    var r := AddPoints(users, id, d);
    forall a | FindUser(users, a).Some?
      ensures FindUser(r, a).Some? && FindUser(r, a).value.isAdmin == FindUser(users, a).value.isAdmin
    {
      var k := SameUserRow(users, r, a);
    }
  }

  /** `where({ id }).increment('submissions_count', 1)`. */
  function AddSubmission(users: seq<User>, id: UserId): (r: seq<User>)
    ensures |r| == |users|
    ensures forall i :: 0 <= i < |users| ==> r[i].id == users[i].id
    ensures forall i :: 0 <= i < |users| && users[i].id != id ==> r[i] == users[i]
    ensures forall i :: 0 <= i < |users| && users[i].id == id ==>
      r[i] == users[i].(submissionsCount := users[i].submissionsCount + 1)
  {
    seq(|users|, i requires 0 <= i < |users| =>
      if users[i].id == id then users[i].(submissionsCount := users[i].submissionsCount + 1) else users[i])
  }

  /** Counting a submission changes no user's points. */
  lemma PointsAfterSubmission(users: seq<User>, id: UserId, other: UserId)
    ensures PointsOf(AddSubmission(users, id), other) == PointsOf(users, other)
  {
    if FindUser(users, other).Some? {
      var k := SameUserRow(users, AddSubmission(users, id), other);
    }
  }

  /** Appending a user row leaves every existing user's lookup unchanged. */
  lemma {:induction false} FindAfterAppend(users: seq<User>, u: User, other: UserId)
    ensures FindUser(users, other).Some? ==> FindUser(users + [u], other) == FindUser(users, other)
  {
    if |users| > 0 {
      FindAfterAppend(users[1..], u, other);
      assert (users + [u])[1..] == users[1..] + [u];
    }
  }

  /** `where({ id }).update(...)` on `complaints`: `f` rewrites every row
      with this id. */
  function UpdateComplaint(complaints: seq<Complaint>, id: ComplaintId, f: Complaint -> Complaint): (r: seq<Complaint>)
    ensures |r| == |complaints|
    ensures forall i :: 0 <= i < |complaints| && complaints[i].id != id ==> r[i] == complaints[i]
    ensures forall i :: 0 <= i < |complaints| && complaints[i].id == id ==> r[i] == f(complaints[i])
  {
    seq(|complaints|, i requires 0 <= i < |complaints| =>
      if complaints[i].id == id then f(complaints[i]) else complaints[i])
  }

  /** The row a successful complaint lookup finds: the first one with the id. */
  lemma {:induction false} FirstComplaintRow(complaints: seq<Complaint>, id: ComplaintId) returns (k: nat)
    requires FindComplaint(complaints, id).Some?
    ensures k < |complaints| && FindComplaint(complaints, id) == Some(complaints[k])
    ensures forall j :: 0 <= j < k ==> complaints[j].id != id
  {
    if complaints[0].id == id {
      k := 0;
    } else {
      var k' := FirstComplaintRow(complaints[1..], id);
      k := k' + 1;
    }
  }

  /** The first row with the id is what a complaint lookup finds. */
  lemma {:induction false} FindComplaintAt(complaints: seq<Complaint>, id: ComplaintId, k: nat)
    requires k < |complaints| && complaints[k].id == id
    requires forall j :: 0 <= j < k ==> complaints[j].id != id
    ensures FindComplaint(complaints, id) == Some(complaints[k])
  {
    if k > 0 {
      FindComplaintAt(complaints[1..], id, k - 1);
    }
  }

  /** After rewriting the rows with `id` by an `f` that keeps the id, looking `id` up finds the
      rewritten first row, and looking up any other id finds what it found
      before. */
  lemma FindAfterUpdate(complaints: seq<Complaint>, id: ComplaintId, f: Complaint -> Complaint)
    requires forall c :: f(c).id == c.id
    ensures FindComplaint(UpdateComplaint(complaints, id, f), id) ==
      (match FindComplaint(complaints, id) case Some(c) => Some(f(c)) case None => None)
    ensures forall other :: other != id ==>
      FindComplaint(UpdateComplaint(complaints, id, f), other) == FindComplaint(complaints, other)
  {
    var r := UpdateComplaint(complaints, id, f);
    assert forall i :: 0 <= i < |complaints| ==> r[i].id == complaints[i].id;
    forall other | FindComplaint(complaints, other).Some?
      ensures exists k :: 0 <= k < |complaints| && FindComplaint(complaints, other) == Some(complaints[k])
                                               && FindComplaint(r, other) == Some(r[k])
    {
      var k := FirstComplaintRow(complaints, other);
      FindComplaintAt(r, other, k);
    }
  }

  /** `where({ id }).increment('points', d)` as a route sees it: the
      incremented user's row is found with its points raised by `d` and every
      other column as it was, no other user's row changes, and every admin
      flag stays. */
  function Credit(users: seq<User>, id: UserId, d: nat): (r: seq<User>)
    ensures |r| == |users| && forall i :: 0 <= i < |users| ==> r[i].id == users[i].id
    ensures FindUser(users, id).Some? ==> PointsOf(r, id) == PointsOf(users, id) + d
    ensures Credited(users, r, id, d)
    ensures forall other :: other != id ==> FindUser(r, other) == FindUser(users, other)
    ensures forall a ::
      (FindUser(r, a).Some? && FindUser(r, a).value.isAdmin) <==> (FindUser(users, a).Some? && FindUser(users, a).value.isAdmin)
  {
    PointsAfterAdd(users, id, d);
    OwnerAfterAdd(users, id, d);
    AdminsAfterAdd(users, id, d);
    AddPoints(users, id, d)
  }

  /** `where({ id }).update(...)` as a route sees it: the looked-up complaint
      is rewritten by `f`, every other lookup is unchanged, and no row
      changes its id. */
  function Rewrite(complaints: seq<Complaint>, id: ComplaintId, f: Complaint -> Complaint): (r: seq<Complaint>)
    requires forall c :: f(c).id == c.id
    ensures |r| == |complaints| && forall i :: 0 <= i < |complaints| ==> r[i].id == complaints[i].id
    ensures FindComplaint(r, id) == (match FindComplaint(complaints, id) case Some(c) => Some(f(c)) case None => None)
    ensures forall other :: other != id ==> FindComplaint(r, other) == FindComplaint(complaints, other)
  {
    FindAfterUpdate(complaints, id, f);
    UpdateComplaint(complaints, id, f)
  }

  /** The status of the newest history row for a complaint, if any. */
  function LastStatus(history: seq<HistoryEntry>, id: ComplaintId): (r: Option<string>)
    ensures r.Some? <==> exists i :: 0 <= i < |history| && history[i].complaintId == id
    ensures r.Some? ==> exists i :: 0 <= i < |history| && history[i].complaintId == id && history[i].status == r.value
  {
    if |history| == 0 then None
    else
      var last := history[|history| - 1];
      if last.complaintId == id then Some(last.status)
      else
        var r := LastStatus(history[..|history| - 1], id);
        assert forall i :: 0 <= i < |history| - 1 ==> history[..|history| - 1][i] == history[i];
        r
  }

  /** The newest row for a complaint after an append is the appended row if
      it is about that complaint, and the old newest row otherwise. */
  lemma LastStatusAppend(history: seq<HistoryEntry>, e: HistoryEntry, id: ComplaintId)
    ensures LastStatus(history + [e], id) == if e.complaintId == id then Some(e.status) else LastStatus(history, id)
  {
    assert (history + [e])[..|history|] == history;
  }

  /** Primary keys are unique and below the next serial value, and each
      complaint's newest history row records its current status. */
  ghost predicate Valid(s: State) {
    && (forall i, j :: 0 <= i < j < |s.users| ==> s.users[i].id != s.users[j].id)
    && (forall i :: 0 <= i < |s.users| ==> s.users[i].id < s.nextUserId)
    && (forall i, j :: 0 <= i < j < |s.complaints| ==> s.complaints[i].id != s.complaints[j].id)
    && (forall i :: 0 <= i < |s.complaints| ==> s.complaints[i].id < s.nextComplaintId)
    && (forall i :: 0 <= i < |s.complaints| ==> LastStatus(s.history, s.complaints[i].id) == Some(s.complaints[i].status))
  }
}

=== FILE: seqs.dfy ===
/** Generic sequence operations that stand in for the SQL the routes issue:
    `where` (Filter), `orderBy(..., 'desc')` (SortDesc) and `limit` (Take). */
module Seqs {

  /** The elements of `s` that satisfy `p`, in their original order. */
  function Filter<T(!new)>(s: seq<T>, p: T -> bool): (r: seq<T>)
    ensures |r| <= |s|
  {
    if |s| == 0 then []
    else
      var rest := Filter(s[1..], p);
      if p(s[0]) then [s[0]] + rest else rest
  }

  /** A filter keeps every occurrence of an element that satisfies `p` and
      none of one that does not. */
  lemma {:induction false} FilterMultiset<T(!new)>(s: seq<T>, p: T -> bool)
    ensures forall x :: multiset(Filter(s, p))[x] == if p(x) then multiset(s)[x] else 0
  {
    if |s| > 0 {
      FilterMultiset(s[1..], p);
      assert s == [s[0]] + s[1..];
    }
  }

  /** A filter draws its elements from the input. */
  lemma FilterIsSubMultiset<T(!new)>(s: seq<T>, p: T -> bool)
    ensures multiset(Filter(s, p)) <= multiset(s)
  {
    FilterMultiset(s, p);
    forall x ensures multiset(Filter(s, p))[x] <= multiset(s)[x] {
    }
  }

  /** The number of elements of `s` that satisfy `p` (SQL `count`). */
  function Count<T(!new)>(s: seq<T>, p: T -> bool): (n: nat)
    ensures n <= |s|
  {
    |Filter(s, p)|
  }

  lemma FilterMembers<T(!new)>(s: seq<T>, p: T -> bool)
    ensures forall x :: x in Filter(s, p) <==> x in s && p(x)
  {
    FilterMultiset(s, p);
    forall x
      ensures x in Filter(s, p) <==> x in s && p(x)
    {
      assert x in Filter(s, p) <==> multiset(Filter(s, p))[x] > 0;
      assert x in s <==> multiset(s)[x] > 0;
    }
  }

  /** Filtering respects concatenation, so counts add up over a split. */
  lemma {:induction false} FilterConcat<T(!new)>(a: seq<T>, b: seq<T>, p: T -> bool)
    ensures Filter(a + b, p) == Filter(a, p) + Filter(b, p)
  {
    if |a| == 0 {
      assert a + b == b;
    } else {
      assert (a + b)[1..] == a[1..] + b;
      assert (a + b)[0] == a[0];
      FilterConcat(a[1..], b, p);
    }
  }

  /** Counting is monotone in the predicate; it is strictly larger when some
      element satisfies the weaker predicate only. */
  lemma {:induction false} CountMonotone<T(!new)>(s: seq<T>, p: T -> bool, q: T -> bool)
    requires forall x :: p(x) ==> q(x)
    ensures Count(s, p) <= Count(s, q)
    ensures (exists x :: x in s && q(x) && !p(x)) ==> Count(s, p) < Count(s, q)
  {
    if |s| > 0 {
      assert s == [s[0]] + s[1..];
      FilterConcat([s[0]], s[1..], p);
      FilterConcat([s[0]], s[1..], q);
      CountMonotone(s[1..], p, q);
      if exists x :: x in s && q(x) && !p(x) {
        var x :| x in s && q(x) && !p(x);
        if x != s[0] {
          assert x in s[1..];
        }
      }
    }
  }

  /** No element satisfies `p`, so nothing is counted. */
  lemma {:induction false} CountNone<T(!new)>(s: seq<T>, p: T -> bool)
    requires forall i :: 0 <= i < |s| ==> !p(s[i])
    ensures Count(s, p) == 0
  {
    if |s| > 0 {
      CountNone(s[1..], p);
    }
  }

  /** `s` is ordered by `key`, largest first (SQL `orderBy(key, 'desc')`). */
  ghost predicate SortedDesc<T>(s: seq<T>, key: T -> int) {
    forall i, j :: 0 <= i < j < |s| ==> key(s[i]) >= key(s[j])
  }

  /** An element whose key bounds every element of `tail` and `x` also bounds
      any rearrangement of them. */
  lemma BoundedByHead<T>(h: T, tail: seq<T>, x: T, rest: seq<T>, key: T -> int)
    requires forall k :: 0 <= k < |tail| ==> key(h) >= key(tail[k])
    requires key(h) >= key(x)
    requires multiset(rest) == multiset(tail) + multiset{x}
    ensures forall k :: 0 <= k < |rest| ==> key(h) >= key(rest[k])
  {
    forall k | 0 <= k < |rest|
      ensures key(h) >= key(rest[k])
    {
      assert rest[k] in multiset(rest);
      if rest[k] != x {
        assert rest[k] in multiset(tail);
        var m :| 0 <= m < |tail| && tail[m] == rest[k];
      }
    }
  }

  /** Inserts `x` before the first element with a strictly smaller key. */
  function InsertDesc<T>(x: T, s: seq<T>, key: T -> int): (r: seq<T>)
    requires SortedDesc(s, key)
    ensures |r| == |s| + 1
    ensures multiset(r) == multiset(s) + multiset{x}
    ensures SortedDesc(r, key)
  {
    if |s| == 0 then [x]
    else if key(x) >= key(s[0]) then [x] + s
    else
      assert s == [s[0]] + s[1..];
      var rest := InsertDesc(x, s[1..], key);
      BoundedByHead(s[0], s[1..], x, rest, key);
      [s[0]] + rest
  }

  /** A sort on `key`, largest first: a sorted permutation of `s`. Ties keep
      their input order, one of the orders a database may return. */
  function SortDesc<T>(s: seq<T>, key: T -> int): (r: seq<T>)
    ensures |r| == |s|
    ensures multiset(r) == multiset(s)
    ensures SortedDesc(r, key)
  {
    if |s| == 0 then []
    else
      assert s == [s[0]] + s[1..];
      InsertDesc(s[0], SortDesc(s[1..], key), key)
  }

  /** The first `n` elements, or all of them when there are fewer (SQL `limit`). */
  function Take<T>(s: seq<T>, n: nat): (r: seq<T>)
    ensures |r| == if |s| <= n then |s| else n
    ensures r <= s
  {
    if |s| <= n then s else s[..n]
  }

  /** Truncating a sorted sequence keeps a top group: every element left out
      has a key no larger than every element kept. */
  lemma TakeKeepsTop<T>(s: seq<T>, n: nat, key: T -> int)
    requires SortedDesc(s, key)
    ensures SortedDesc(Take(s, n), key)
    ensures multiset(Take(s, n)) <= multiset(s)
    ensures forall x, e :: x in multiset(s) - multiset(Take(s, n)) && e in Take(s, n) ==> key(e) >= key(x)
  {
    var t := Take(s, n);
    assert s == t + s[|t|..];
    assert multiset(s) == multiset(t) + multiset(s[|t|..]);
    forall x, e | x in multiset(s) - multiset(t) && e in t
      ensures key(e) >= key(x)
    {
      assert x in multiset(s[|t|..]);
      var j :| 0 <= j < |s[|t|..]| && s[|t|..][j] == x;
      var i :| 0 <= i < |t| && t[i] == e;
      assert s[i] == e && s[|t| + j] == x;
    }
  }

  /** The `n` elements with the largest keys, largest first
      (SQL `orderBy(key, 'desc').limit(n)`). */
  function Top<T(!new)>(s: seq<T>, n: nat, key: T -> int): (r: seq<T>)
    ensures |r| == if |s| <= n then |s| else n
    ensures SortedDesc(r, key)
    ensures multiset(r) <= multiset(s)
    ensures |s| <= n ==> multiset(r) == multiset(s)
    ensures forall x, e :: x in multiset(s) - multiset(r) && e in r ==> key(e) >= key(x)
  {
    var sorted := SortDesc(s, key);
    TakeKeepsTop(sorted, n, key);
    Take(sorted, n)
  }
}

=== FILE: server.dfy ===
/** The routes the server entry point defines itself: the public user
    leaderboard and the caller's notifications. */
module ServerRoutes {
  import opened Wrappers
  import opened Model
  import Seqs

  /** Accounts that appear on the public leaderboard: neither admins nor
      department accounts. */
  predicate IsCitizen(u: User) {
    !u.isAdmin && !u.isDepartmentUser
  }

  /** The response rows for `rows`, ranked by position from 1. */
  function RankedEntries(rows: seq<User>): (r: seq<LeaderboardEntry>)
    ensures |r| == |rows|
    ensures forall i :: 0 <= i < |rows| ==> r[i] == EntryOf(rows[i], Some(i + 1))
  {
    seq(|rows|, i requires 0 <= i < |rows| => EntryOf(rows[i], Some(i + 1)))
  }

  /** `entries` ranks the rows `top`: citizens drawn from `users`, each with
      at least the points of every citizen left out. */
  ghost predicate ListsTopCitizens(users: seq<User>, top: seq<User>, entries: seq<LeaderboardEntry>) {
    && |top| == |entries|
    && multiset(top) <= multiset(Seqs.Filter(users, IsCitizen))
    && (forall i :: 0 <= i < |top| ==> IsCitizen(top[i]) && top[i] in users)
    && (forall i :: 0 <= i < |entries| ==> entries[i] == EntryOf(top[i], Some(i + 1)))
    && (forall x, e :: x in users && IsCitizen(x) && x !in top && e in top ==> e.points >= x.points)
  }

  /** The 50 highest-scoring citizens, ranked by position, are the top
      citizens of the table. */
  lemma TopCitizensListed(users: seq<User>)
    ensures var top := Seqs.Top(Seqs.Filter(users, IsCitizen), 50, ByPoints);
      ListsTopCitizens(users, top, RankedEntries(top))
  {
    var citizens := Seqs.Filter(users, IsCitizen);
    var top := Seqs.Top(citizens, 50, ByPoints);
    Seqs.FilterMultiset(users, IsCitizen);
    forall i | 0 <= i < |top|
      ensures IsCitizen(top[i]) && top[i] in users
    {
      assert multiset(citizens)[top[i]] > 0;
    }
    forall x, e | x in users && IsCitizen(x) && x !in top && e in top
      ensures e.points >= x.points
    {
      assert multiset(citizens)[x] > 0;
      assert ByPoints(e) >= ByPoints(x);
    }
  }

  /** GET /api/leaderboard: citizens only, by points descending, at most 50,
      ranked 1, 2, 3, ... by position, so tied users get distinct ranks. */
  function PublicLeaderboard(users: seq<User>): (r: seq<LeaderboardEntry>)
    ensures |r| == if Seqs.Count(users, IsCitizen) < 50 then Seqs.Count(users, IsCitizen) else 50
    ensures forall i :: 0 <= i < |r| ==> r[i].rank == Some(i + 1)
    ensures forall i, j :: 0 <= i < j < |r| ==> r[i].points >= r[j].points
    ensures exists top :: ListsTopCitizens(users, top, r)
  {
    var top := Seqs.Top(Seqs.Filter(users, IsCitizen), 50, ByPoints);
    TopCitizensListed(users);
    RankedEntries(top)
  }

  /** `where({ user_id })` on `notifications`. */
  function OwnedBy(userId: UserId): Notification -> bool {
    (n: Notification) => n.userId == userId
  }

  /** The sort key of the notification feed: its date, newest first. */
  function ByDate(n: Notification): int {
    n.date
  }

  /** `shown` holds only `userId`'s rows, each newer than or as new as every
      row of theirs left out, and all of them when there are fewer than 20. */
  ghost predicate ShowsNewestOwn(notifications: seq<Notification>, userId: UserId, shown: seq<Notification>) {
    && (forall i :: 0 <= i < |shown| ==> shown[i].userId == userId && shown[i] in notifications)
    && multiset(shown) <= multiset(notifications)
    && (|shown| == 20 || forall n :: n in notifications && n.userId == userId ==> n in shown)
    && (forall x, e :: x in notifications && x.userId == userId && x !in shown && e in shown ==> e.date >= x.date)
  }

  /** The 20 newest of the caller's rows are the newest of their own. */
  lemma NewestOwnShown(notifications: seq<Notification>, userId: UserId)
    ensures ShowsNewestOwn(notifications, userId,
      Seqs.Top(Seqs.Filter(notifications, OwnedBy(userId)), 20, ByDate))
  {
    var mine := Seqs.Filter(notifications, OwnedBy(userId));
    var shown := Seqs.Top(mine, 20, ByDate);
    Seqs.FilterMultiset(notifications, OwnedBy(userId));
    Seqs.FilterIsSubMultiset(notifications, OwnedBy(userId));
    forall i | 0 <= i < |shown|
      ensures shown[i].userId == userId && shown[i] in notifications
    {
      assert multiset(mine)[shown[i]] > 0;
    }
    if |shown| != 20 {
      forall n | n in notifications && n.userId == userId
        ensures n in shown
      {
        assert multiset(mine)[n] > 0;
      }
    }
    forall x, e | x in notifications && x.userId == userId && x !in shown && e in shown
      ensures e.date >= x.date
    {
      assert multiset(mine)[x] > 0;
      assert ByDate(e) >= ByDate(x);
    }
  }

  /** GET /api/notifications for `userId`: only that user's rows, newest
      first, at most 20. */
  function UserNotifications(notifications: seq<Notification>, userId: UserId): (r: seq<Notification>)
    ensures |r| <= 20
    ensures forall i, j :: 0 <= i < j < |r| ==> r[i].date >= r[j].date
    ensures ShowsNewestOwn(notifications, userId, r)
  {
    var r := Seqs.Top(Seqs.Filter(notifications, OwnedBy(userId)), 20,
                      ByDate);
    NewestOwnShown(notifications, userId);
    r
  }
}

=== FILE: timeline.dfy ===
/** The client's status timeline: backend statuses are normalised onto four
    display steps, and each step is shown completed, active, and with the
    first history row that reached it. */
module StatusTimeline {
  import opened Wrappers

  /** The display steps, in order. */
  const Steps: seq<string> := ["submitted", "received", "in-progress", "completed"]

  /** A history row as the component receives it. */
  datatype TimelineEntry = TimelineEntry(status: string, date: nat, department: Option<string>)

  /** How one step is drawn. */
  datatype StepView = StepView(status: string, completed: bool, active: bool, item: Option<TimelineEntry>)

  /** The backend's `assigned` is displayed as `received`; every other
      status is kept as it is. */
  function Normalize(status: string): (r: string)
    ensures r == "received" <==> status == "assigned" || status == "received"
    ensures r != status ==> status == "assigned"
  {
    if status == "assigned" then "received" else status
  }

  /** `steps.indexOf(x)`: the first position of `x`, or -1. */
  function IndexOf(steps: seq<string>, x: string): (r: int)
    ensures -1 <= r < |steps|
    ensures r == -1 <==> x !in steps
    ensures r >= 0 ==> steps[r] == x && forall j :: 0 <= j < r ==> steps[j] != x
  {
    if |steps| == 0 then -1
    else if steps[0] == x then 0
    else
      var r := IndexOf(steps[1..], x);
      if r == -1 then -1 else r + 1
  }

  /** The position of the current status among the steps, or -1. */
  function CurrentIndex(current: string): (r: int)
    ensures -1 <= r < |Steps|
    ensures r == -1 <==> Normalize(current) !in Steps
    ensures r >= 0 ==> Steps[r] == Normalize(current)
  {
    IndexOf(Steps, Normalize(current))
  }

  /** `statusHistory.find(...)`: the first row whose normalised status is
      `step`. */
  function FirstReaching(history: seq<TimelineEntry>, step: string): (r: Option<TimelineEntry>)
    ensures r.None? <==> forall i :: 0 <= i < |history| ==> Normalize(history[i].status) != step
    ensures r.Some? ==> exists i :: && 0 <= i < |history| && history[i] == r.value
                                  && Normalize(r.value.status) == step
                                  && forall j :: 0 <= j < i ==> Normalize(history[j].status) != step
  {
    if |history| == 0 then None
    else if Normalize(history[0].status) == step then Some(history[0])
    else
      var r := FirstReaching(history[1..], step);
      assert forall j :: 0 <= j < |history| - 1 ==> history[1..][j] == history[j + 1];
      r
  }

  /** The steps drawn for current index `k`: steps up to `k` completed,
      step `k` active. */
  function Draw(history: seq<TimelineEntry>, k: int): (r: seq<StepView>)
    requires -1 <= k < |Steps|
    ensures |r| == |Steps|
    ensures forall i :: 0 <= i < |r| ==> r[i].status == Steps[i]
    ensures forall i, j :: 0 <= i <= j < |r| && r[j].completed ==> r[i].completed
    ensures forall i, j :: 0 <= i < |r| && 0 <= j < |r| && r[i].active && r[j].active ==> i == j
    ensures forall i :: 0 <= i < |r| ==> (r[i].active <==> r[i].completed && (i + 1 == |r| || !r[i + 1].completed))
    ensures (exists i :: 0 <= i < |r| && r[i].completed) <==> k >= 0
    ensures forall i :: 0 <= i < |r| && r[i].active ==> i == k
    ensures forall i :: 0 <= i < |r| ==> r[i].item == FirstReaching(history, Steps[i])
  {
    var r := seq(|Steps|, i requires 0 <= i < |Steps| =>
      StepView(Steps[i], i <= k, i == k, FirstReaching(history, Steps[i])));
    assert k >= 0 ==> r[0].completed;
    r
  }

  /** The four steps as drawn. Completed steps form a prefix, ending at the
      one active step when the current status is displayable; a current
      status outside the steps (`resolved`, `rejected`) completes none. */
  function Timeline(history: seq<TimelineEntry>, current: string): (r: seq<StepView>)
    ensures |r| == |Steps|
    ensures forall i :: 0 <= i < |r| ==> r[i].status == Steps[i]
    ensures forall i, j :: 0 <= i <= j < |r| && r[j].completed ==> r[i].completed
    ensures forall i, j :: 0 <= i < |r| && 0 <= j < |r| && r[i].active && r[j].active ==> i == j
    ensures forall i :: 0 <= i < |r| ==> (r[i].active <==> r[i].completed && (i + 1 == |r| || !r[i + 1].completed))
    ensures (exists i :: 0 <= i < |r| && r[i].completed) <==> Normalize(current) in Steps
    ensures forall i :: 0 <= i < |r| && r[i].active ==> Steps[i] == Normalize(current)
    ensures forall i :: 0 <= i < |r| ==> r[i].item == FirstReaching(history, Steps[i])
  {
    var k := CurrentIndex(current);
    var r := Draw(history, k);
    assert forall i :: 0 <= i < |r| && r[i].active ==> i == k && Steps[k] == Normalize(current);
    r
  }

  /** A complaint the backend calls `assigned` is drawn exactly as one that
      is `received`. */
  lemma AssignedDrawnAsReceived(history: seq<TimelineEntry>)
    ensures Timeline(history, "assigned") == Timeline(history, "received")
  {
  }

  /** Normalising twice is normalising once. */
  lemma NormalizeIdempotent(status: string)
    ensures Normalize(Normalize(status)) == Normalize(status)
  {
  }

  /** Backend statuses the steps do not name, such as `resolved` and
      `rejected`, leave every step unreached. */
  lemma OffStepStatusesCompleteNothing(history: seq<TimelineEntry>)
    ensures forall i :: 0 <= i < |Steps| ==> !Timeline(history, "resolved")[i].completed
    ensures forall i :: 0 <= i < |Steps| ==> !Timeline(history, "rejected")[i].completed
  {
    assert "resolved" !in Steps;
    assert "rejected" !in Steps;
  }
}

=== FILE: wrappers.dfy ===
/** The optional and result values used by every route of the model. */
module Wrappers {

  /** A value that may be absent: SQL NULL, a missing request field or a
      lookup that found no row. */
  datatype Option<+T> = None | Some(value: T) {
    function GetOr(default: T): T {
      match this
      case Some(v) => v
      case None => default
    }
  }

  /** The outcome of a route handler: the value it responds with, or the
      error response it returns instead. */
  datatype Result<+R, +E> = Ok(value: R) | Err(error: E)
}
